=== FILE: README.md ===
# NakamaFNAPong network reconciliation, in Dafny

This project is a Dafny model of the per-tick network logic of NakamaFNAPong, a two-player Pong
game built on FNA, MoonTools.ECS and the Nakama realtime transport. It proves properties of
that model. The parts modelled are listed below.

- **Clock-skew estimator.** `RollingAverage` is a fixed-capacity circular buffer. It keeps a
  cached running sum, a populated count and a write cursor.
- **Remote paddle pipeline.** These systems run in the order the ECS manager lists them:
  - the reset-smoothing system snapshots the display state and restarts the smoothing factor;
  - the apply-prediction system estimates each packet's lateness from a per-entity clock-delta
    average, then fast-forwards the simulation state by whole frames of `TimeSpan` ticks;
  - the update-remote system decays the factor, steps the simulation and previous states
    together, and collapses the display state onto the simulation state when the factor
    reaches 0.
- **Local broadcaster.** A shared send timer gates the paddle packets, and each packet has a
  fixed field sequence.
- **Session manager** (`NetworkGameManager`):
  - the session-to-player map;
  - host election when a match forms and when the host leaves;
  - `IsHost`;
  - dispatch of incoming state by operation code, and the three state decoders;
  - `QuitMatch`.
- **Host-only score sync.** The host adds up the goals and sends the totals. A C# `int` wraps
  around.
- **ECS manager queues.**
  - Paddle states from unknown sessions are dropped.
  - The five queues are drained first-in first-out, before any system runs.
- **Play phase.** Spawns alternate between two mirrored spawn points and bounce directions.
  Handlers connect the manager's events to the queues and to the score.

How the model represents the source:

- Floats are exact `real`s. `TimeSpan` is an `int` count of 100 ns ticks.
  `TimeSpan.FromSeconds` truncates toward zero, so one 1/60 s frame is 166666 ticks. The
  tick count is unbounded, where `TimeSpan` holds 64 bits (see "Left out").
- A packet is a sequence of typed fields, not bytes.
- The ECS world is a map from entity to the record of its network components.
- Handlers are pure functions from state to state. Transport sends become returned lists of
  outgoing packets. Where the session manager's handlers would throw, the result is an
  explicit fault (`Outcome.Threw`). Sends are not checked this way: see "Left out".
- Some calls lead into code that is not part of this model: the paddle step, the remote sync
  system, and the culture-sensitive string order used for host election. These are function
  parameters, and lemmas state what they assume about them (for example, a strict total
  order).

## Model

| member | source | states |
|---|---|---|
| RollingAverages.New | Source/NakamaFNAPong/NakamaMultiplayer/RollingAverage.cs:40-43 | A new estimator has `capacity` zeroed slots, no samples and cursor 0, and its average is 0 before any add. |
| RollingAverages.NewIsValid | Source/NakamaFNAPong/NakamaMultiplayer/RollingAverage.cs:40-43 | With capacity > 0 a new estimator meets the invariant. Capacity 0 is excluded because the first add would index an empty array. |
| RollingAverages.RollingAverage.AddValue | Source/NakamaFNAPong/NakamaMultiplayer/RollingAverage.cs:49-82 | An add writes the value into the cursor slot and leaves every other slot alone. The cursor stays inside the buffer. The count never decreases and becomes min(count + 1, capacity). The invariant, including cached sum = slot sum, is preserved. |
| RollingAverages.IncrementalSumAgrees | Source/NakamaFNAPong/NakamaMultiplayer/RollingAverage.cs:54-80 | In exact arithmetic, the sum after an add is the old sum minus the overwritten slot plus the new value. This holds also when the add wraps and the sum is recomputed from scratch. |
| RollingAverages.StepWhenFull | Source/NakamaFNAPong/NakamaMultiplayer/RollingAverage.cs:54-70 | Once the buffer is full, the slot an add overwrites is the oldest sample. Reading from the cursor round again gives the last `capacity` values, oldest first. |
| RollingAverages.HistoryShape | Source/NakamaFNAPong/NakamaMultiplayer/RollingAverage.cs:49-82 | After any sequence of adds to a new estimator, the count is min(adds, capacity) and the buffer holds the most recent values. Before filling they sit in order followed by zeros; once full they are rotated at the cursor. |
| RollingAverages.BufferSumIsWindowSum | Source/NakamaFNAPong/NakamaMultiplayer/RollingAverage.cs:54-80 | The cached sum equals the sum of the last min(adds, capacity) values added. |
| RollingAverages.AverageIsWindowMean | Source/NakamaFNAPong/NakamaMultiplayer/RollingAverage.cs:87 | `AverageValue` is the arithmetic mean of the last min(adds, capacity) values added, and 0 before any add. |
| RollingAverages.SumSamples | Source/NakamaFNAPong/NakamaMultiplayer/RollingAverage.cs:77-80 | The recomputation loop run at wrap time yields the sum of all slots. |
| RollingAverages.RollingAverageBuffer.AddValue | Source/NakamaFNAPong/NakamaMultiplayer/RollingAverage.cs:49-82 | The array-backed class's add moves its state exactly as the functional estimator's add does. |
| Packets.ReadPaddle | Source/NakamaFNAPong/NakamaMultiplayer/NetworkGameManager.cs:259-267 | The paddle decoder reads a single, two vectors and two booleans, in that order. A decoded packet starts with exactly the fields of the result. A payload of fewer than five fields decodes to nothing. |
| Packets.ReadBall | Source/NakamaFNAPong/NakamaMultiplayer/NetworkGameManager.cs:286-289 | The ball decoder reads a single and then a vector. A short payload decodes to nothing. |
| Packets.ReadScore | Source/NakamaFNAPong/NakamaMultiplayer/NetworkGameManager.cs:302-305 | The score decoder reads two 32-bit integers. A short payload decodes to nothing. |
| Packets.PaddleRoundTrip | Source/NakamaFNAPong/Gameplay/Systems/PlayerNetworkSendLocalStateSystem.cs:60-70 | Decoding what the sender writes gives back the sent fields, whatever stale fields follow in the buffer. |
| Packets.BallRoundTrip | Source/NakamaFNAPong/NakamaMultiplayer/NetworkGameManager.cs:288-289 | The ball decoder inverts a direction-then-position writer. |
| Packets.ScoreRoundTrip | Source/NakamaFNAPong/NakamaMultiplayer/NetworkGameManager.cs:304-305 | The score decoder inverts a writer of the two totals. |
| ResetSmoothingSystem.ResetOne | Source/NakamaFNAPong/Gameplay/Systems/PlayerNetworkRemoteResetSmoothingSystem.cs:24-39 | With smoothing on, the previous state becomes the display state and the factor becomes 1. With it off, the factor becomes 0 and the previous state is kept. Display and simulation are never written. |
| ResetSmoothingSystem.ResetIdempotent | Source/NakamaFNAPong/Gameplay/Systems/PlayerNetworkRemoteResetSmoothingSystem.cs:22-39 | Resetting twice is the same as resetting once. |
| ResetSmoothingSystem.Update | Source/NakamaFNAPong/Gameplay/Systems/PlayerNetworkRemoteResetSmoothingSystem.cs:20-41 | Over a tick's messages, every addressed entity ends reset once and every other entity is unchanged. No entity appears or disappears. |
| ResetSmoothingSystem.ResetKeepsDisplayAndSimulation | Source/NakamaFNAPong/Gameplay/Systems/PlayerNetworkRemoteResetSmoothingSystem.cs:22-40 | The system writes no display or simulation state, and each messaged entity's factor ends at exactly 0 or 1. |
| ResetSmoothingSystem.DuplicateMessagesAreHarmless | Source/NakamaFNAPong/Gameplay/Systems/PlayerNetworkRemoteResetSmoothingSystem.cs:22-34 | Two message lists that address the same set of entities have the same effect. Repeated messages for one entity act like one. |
| ApplyPredictionSystem.SecondsToTicks | Source/NakamaFNAPong/Gameplay/Systems/PlayerNetworkRemoteApplyPredictionSystem.cs:63 | Converting seconds to ticks truncates toward zero, for negative deviations too. |
| ApplyPredictionSystem.CatchUp | Source/NakamaFNAPong/Gameplay/Systems/PlayerNetworkRemoteApplyPredictionSystem.cs:68-73 | The loop steps the state `latency div frame` times, and zero times for a latency below one frame, negative ones included. The residual is below one frame. For a non-negative latency, latency = steps × frame + residual with 0 ≤ residual. |
| ApplyPredictionSystem.CatchUpCount | Source/NakamaFNAPong/Gameplay/Systems/PlayerNetworkRemoteApplyPredictionSystem.cs:68-73 | A latency of k whole frames plus a sub-frame remainder steps exactly k times and leaves that remainder. |
| ApplyPredictionSystem.ClockDeltaOf | Source/NakamaFNAPong/Gameplay/Systems/PlayerNetworkRemoteApplyPredictionSystem.cs:37-41 | An entity's existing average is reused. On its first message a new, empty average is used. |
| ApplyPredictionSystem.EstimateLatency | Source/NakamaFNAPong/Gameplay/Systems/PlayerNetworkRemoteApplyPredictionSystem.cs:45-63 | The clock delta is added to the average before the average is read. The deviation is the delta minus the updated average. The latency is the 1/20 s baseline plus the deviation in ticks. |
| ApplyPredictionSystem.FirstPacketHasNoDeviation | Source/NakamaFNAPong/Gameplay/Systems/PlayerNetworkRemoteApplyPredictionSystem.cs:35-63 | On an entity's first packet the deviation is exactly 0 and the latency is the 500000-tick baseline, which is three whole frames. |
| ApplyPredictionSystem.ApplyMessage | Source/NakamaFNAPong/Gameplay/Systems/PlayerNetworkRemoteApplyPredictionSystem.cs:31-73 | One message gives its entity a clock-delta entry and may change only that entity's simulation state. Every other entity's average and every other component are untouched. |
| ApplyPredictionSystem.ApplyMessageEffect | Source/NakamaFNAPong/Gameplay/Systems/PlayerNetworkRemoteApplyPredictionSystem.cs:37-73 | After one message, the entity's average has taken the clock delta, and its simulation state is the old one stepped as many whole frames as the estimated latency holds. |
| ApplyPredictionSystem.Update | Source/NakamaFNAPong/Gameplay/Systems/PlayerNetworkRemoteApplyPredictionSystem.cs:24-75 | With prediction off, nothing changes and no average is created. With it on, every messaged entity gains an average and none is removed. Only simulation states change, and only those of messaged entities. An entity without a message keeps its average unchanged. |
| ApplyPredictionSystem.FirstPacketStepsThreeFrames | Source/NakamaFNAPong/Gameplay/Systems/PlayerNetworkRemoteApplyPredictionSystem.cs:29-73 | A single first packet for an entity steps its simulation state exactly three times, and leaves an average holding one sample. |
| UpdateRemoteSystem.Decay | Source/NakamaFNAPong/Gameplay/Systems/PlayerNetworkRemoteUpdateRemoteSystem.cs:36-43 | The factor drops by the decay and is clamped at 0. It is positive exactly when factor − decay is. It never increases for a non-negative decay. |
| UpdateRemoteSystem.UpdateOne | Source/NakamaFNAPong/Gameplay/Systems/PlayerNetworkRemoteUpdateRemoteSystem.cs:36-67 | Prediction steps the simulation state once. The previous state is stepped exactly when prediction is on and the decayed factor is positive. A factor of 0 sets the display to the stepped simulation state; otherwise the display is not written. |
| UpdateRemoteSystem.Update | Source/NakamaFNAPong/Gameplay/Systems/PlayerNetworkRemoteUpdateRemoteSystem.cs:27-69 | Only entities with a smoothing component are visited, each once, with the tick's decay. Entities without one are unchanged. |
| UpdateRemoteSystem.UpdateSettles | Source/NakamaFNAPong/Gameplay/Systems/PlayerNetworkRemoteUpdateRemoteSystem.cs:40-67 | Factors in [0, 1] stay in [0, 1]. Afterwards, any entity with factor 0 shows its simulation state. |
| UpdateRemoteSystem.FactorAfterTicks | Source/NakamaFNAPong/Gameplay/Systems/PlayerNetworkRemoteUpdateRemoteSystem.cs:36-43 | After n ticks a factor v is max(0, v − n·decay): the decay is linear and clamped. |
| UpdateRemoteSystem.SettledAfter | Source/NakamaFNAPong/Gameplay/Systems/PlayerNetworkRemoteUpdateRemoteSystem.cs:36-43 | The factor is 0 after n ticks exactly when n·decay covers the starting factor, so smoothing settles after finitely many ticks whenever the decay is positive. |
| UpdateRemoteSystem.SixTicksAtSixtyHertz | Source/NakamaFNAPong/Gameplay/Systems/PlayerNetworkRemoteUpdateRemoteSystem.cs:36 | At 60 ticks a second the decay is 1/6. A factor of 1 is still positive after five ticks and 0 after six, when the next packet is due. |
| UpdateRemoteSystem.Lockstep | Source/NakamaFNAPong/Gameplay/Systems/PlayerNetworkRemoteUpdateRemoteSystem.cs:45-57 | While the factor stays positive, the simulation and previous states advance together, one step a tick each, and the display state stays put. |
| UpdateRemoteSystem.NoPredictionNoMotion | Source/NakamaFNAPong/Gameplay/Systems/PlayerNetworkRemoteUpdateRemoteSystem.cs:45-58 | With prediction off, the simulation and previous states never move. |
| SendLocalStateSystem.SendOne | Source/NakamaFNAPong/Gameplay/Systems/PlayerNetworkSendLocalStateSystem.cs:57-80 | A paddle visit sends exactly when the timer is at most 0. The packet is a paddle packet holding the tick length, position, velocity and both inputs, and it decodes back to them. The timer is then rearmed to 1/10 s. Every visit takes the tick length off the timer. |
| SendLocalStateSystem.Update | Source/NakamaFNAPong/Gameplay/Systems/PlayerNetworkSendLocalStateSystem.cs:49-82 | One timer is shared by all local paddles. At most one packet leaves per paddle, and each is the packet of one of the paddles, decoding to that paddle's fields and the tick length. An expired timer with a paddle present sends the first paddle's packet first. When nothing is sent, the timer has lost one tick length per paddle. No paddles means no change. |
| SendLocalStateSystem.ElapsedIsProduct | Source/NakamaFNAPong/Gameplay/Systems/PlayerNetworkSendLocalStateSystem.cs:51-80 | n visits of a tick of d seconds take n·d seconds off the timer. |
| SendLocalStateSystem.OnlyFirstPaddleSends | Source/NakamaFNAPong/Gameplay/Systems/PlayerNetworkSendLocalStateSystem.cs:58-80 | From an expired timer, when all the paddles' tick lengths together stay below 1/10 s, only the first paddle's packet leaves, and the timer ends at 1/10 s less those tick lengths. The other paddles are starved. |
| SendLocalStateSystem.TwoPaddlesOneSend | Source/NakamaFNAPong/Gameplay/Systems/PlayerNetworkSendLocalStateSystem.cs:58-80 | With two local paddles, an expired timer and 0 < d with 2d < 1/10 s, exactly one packet leaves, for the first paddle, and the timer ends at 1/10 s − 2d. |
| SendLocalStateSystem.QuietVisits | Source/NakamaFNAPong/Gameplay/Systems/PlayerNetworkSendLocalStateSystem.cs:58-80 | While the timer stays positive over every paddle visit, no paddle sends and each visit only takes the tick length off it. |
| SendLocalStateSystem.SentPacketDecodes | Source/NakamaFNAPong/Gameplay/Systems/PlayerNetworkSendLocalStateSystem.cs:60-75 | The receiver decodes a sent packet to exactly the paddle's fields and the tick length. |
| SendLocalStateSystem.SinglePaddleUpdate | Source/NakamaFNAPong/Gameplay/Systems/PlayerNetworkSendLocalStateSystem.cs:51-81 | With one local paddle, a system update is one visit. |
| SendLocalStateSystem.QuietTicks | Source/NakamaFNAPong/Gameplay/Systems/PlayerNetworkSendLocalStateSystem.cs:58-80 | While the timer stays positive, ticks send nothing and only count it down. |
| SendLocalStateSystem.SendPeriod | Source/NakamaFNAPong/Gameplay/Systems/PlayerNetworkSendLocalStateSystem.cs:58-80 | From an expired timer, with k = ceil(0.1/d) ticks of length d, exactly one packet leaves over the next k ticks, carrying the paddle's fields, and the timer has expired again after them. |
| SendLocalStateSystem.PeriodicSends | Source/NakamaFNAPong/Gameplay/Systems/PlayerNetworkSendLocalStateSystem.cs:77-80 | Over m such periods, exactly m packets leave. |
| SendLocalStateSystem.SixtyTicksSendTenPackets | Source/NakamaFNAPong/Gameplay/Systems/PlayerNetworkSendLocalStateSystem.cs:26-28 | Starting from a new system at 60 ticks a second, one second of play sends ten packets. |
| HostElection.SortFirstCorrect | Source/NakamaFNAPong/NakamaMultiplayer/NetworkGameManager.cs:105 | The scan picks what a stable sort puts first: no key sorts before it, and every earlier element sorts strictly after it. |
| HostElection.SortFirstUnique | Source/NakamaFNAPong/NakamaMultiplayer/NetworkGameManager.cs:131 | Under a strict total order only one index can come first, so the election is determined. |
| HostElection.ElectGreatest | Source/NakamaFNAPong/NakamaMultiplayer/NetworkGameManager.cs:105 | The match-formation election picks one of the matched users. |
| HostElection.ElectGreatestIsGreatest | Source/NakamaFNAPong/NakamaMultiplayer/NetworkGameManager.cs:105 | The host at match formation carries the greatest session id, and it is the first user in list order that does. |
| HostElection.ElectLeast | Source/NakamaFNAPong/NakamaMultiplayer/NetworkGameManager.cs:131 | The re-election picks one of the listed presences. |
| HostElection.ElectLeastIsLeast | Source/NakamaFNAPong/NakamaMultiplayer/NetworkGameManager.cs:131 | The re-elected host carries the least session id, and it is the first presence in list order that does. |
| NetworkGameManager.IsHost | Source/NakamaFNAPong/NakamaMultiplayer/NetworkGameManager.cs:68 | With both presences known, the test holds exactly when their session ids are equal. With both missing it fails. |
| NetworkGameManager.IsHostWithRealSessions | Source/NakamaFNAPong/NakamaMultiplayer/NetworkGameManager.cs:68 | If no session id equals the stand-ins "host" and "user", the test holds exactly when both presences are known and share a session id. |
| NetworkGameManager.SpawnPlayer | Source/NakamaFNAPong/NakamaMultiplayer/NetworkGameManager.cs:200-240 | A mapped session is a no-op. Otherwise exactly one entry is added (a local player exactly when it is the local session) and exactly one matching spawn event is raised. A missing local presence throws. |
| NetworkGameManager.SpawnIdempotent | Source/NakamaFNAPong/NakamaMultiplayer/NetworkGameManager.cs:204-208 | A second spawn of the same session changes nothing and raises nothing. |
| NetworkGameManager.RemovePlayer | Source/NakamaFNAPong/NakamaMultiplayer/NetworkGameManager.cs:242-250 | An unknown session is a no-op with no event. A known one is removed, alone, with one removal event. |
| NetworkGameManager.SpawnThenRemove | Source/NakamaFNAPong/NakamaMultiplayer/NetworkGameManager.cs:200-250 | Removing a freshly spawned session gives back the manager from before the spawn. |
| NetworkGameManager.SpawnAll | Source/NakamaFNAPong/NakamaMultiplayer/NetworkGameManager.cs:114-115 | Spawning a user list throws exactly when the local presence is missing and some user is new. Otherwise the users' sessions are added and existing players are kept. Exactly one spawn event is raised per session that was not mapped before. Each new session is mapped to the local player exactly when it is the local session, and otherwise to a network player of the match carrying that session. |
| NetworkGameManager.RemoveAll | Source/NakamaFNAPong/NakamaMultiplayer/NetworkGameManager.cs:138-139 | Removing a session list unmaps exactly those sessions. The rest keep their players. Exactly one removal event is raised per listed session that was mapped, and each event removes such a session. |
| NetworkGameManager.MatchedBeforeJoin | Source/NakamaFNAPong/NakamaMultiplayer/NetworkGameManager.cs:100-108 | The matchmaker handler up to its `await`. The host is the user with the greatest session id, and an empty user list throws. The local presence is the matched self. Players, current match and events are untouched. |
| NetworkGameManager.MatchJoined | Source/NakamaFNAPong/NakamaMultiplayer/NetworkGameManager.cs:111-118 | The matchmaker handler after its `await`. Every presence of the joined match is spawned and the joined match becomes current. Existing players are kept. Exactly one spawn event is raised per new session. Each new session is the local player exactly when it is the local session, and otherwise a network player of the match. With the local presence cleared in between, a new session throws. |
| NetworkGameManager.OnReceivedMatchmakerMatched | Source/NakamaFNAPong/NakamaMultiplayer/NetworkGameManager.cs:100-119 | Both halves back to back. The host is the user with the greatest session id, and an empty user list throws. The local presence is the matched self and the joined match becomes current. Existing players are kept. Exactly one spawn event is raised per new session of the joined match. Each new session is the local player exactly when it is the matched self's, and otherwise a network player of the match. |
| NetworkGameManager.HostLeavesBeforeJoin | Source/NakamaFNAPong/NakamaMultiplayer/NetworkGameManager.cs:105-131 | Between the two halves, on a first match, the host is set but there is no current match. A presence event in which that host leaves throws a null dereference. |
| NetworkGameManager.QuitBeforeJoin | Source/NakamaFNAPong/NakamaMultiplayer/NetworkGameManager.cs:108-115 | Quitting between the two halves clears the local presence. The second half then throws on the joined match's first presence. |
| NetworkGameManager.JoinThenLeave | Source/NakamaFNAPong/NakamaMultiplayer/NetworkGameManager.cs:133-139 | Joiners are spawned before leavers are removed, so the map ends as (before ∪ joiners) \ leavers. A player that does not leave keeps its entry. Every leaver that was mapped or joined raises its removal event. Every new joiner raises its spawn event and, unless it also leaves, is the local player exactly when it is the local session. The events number the new joiners plus the mapped leavers. |
| NetworkGameManager.OnReceivedMatchPresence | Source/NakamaFNAPong/NakamaMultiplayer/NetworkGameManager.cs:125-140 | When the host's user leaves, the new host is the least session id in the current match's presence list as it was at join time. Otherwise the host is kept. It throws when someone leaves and no host is known, and when the host leaves with no current match or an empty presence list for `First()`. Joiners are added and leavers removed, with the removal, spawn and kept-player facts stated for `JoinThenLeave`. |
| NetworkGameManager.StaleListReelectsLeaver | Source/NakamaFNAPong/NakamaMultiplayer/NetworkGameManager.cs:130-131 | The election over the presence list as joined picks a user who is leaving whenever that user carries the least listed session id: the list does not exclude leavers. |
| NetworkGameManager.DepartingHostReelected | Source/NakamaFNAPong/NakamaMultiplayer/NetworkGameManager.cs:130-131 | A departing host that carries the least listed session id is elected again. The match is left with a host that has gone. |
| NetworkGameManager.OnReceivedMatchPresenceCorrected | Source/NakamaFNAPong/NakamaMultiplayer/NetworkGameManager.cs:125-140 | The presence handler with the corrected election: when the host leaves, the new host is the one elected among the presences that stay, so a departing host is never re-elected. As in the handler as written, the local presence and current match are kept, joiners are added and leavers removed with the same events, and a host who stays is kept. |
| NetworkGameManager.ElectAmongRemaining | Source/NakamaFNAPong/NakamaMultiplayer/NetworkGameManager.cs:130-131 | The corrected election picks a listed presence whose user is not leaving, and picks nobody exactly when every listed presence is leaving. |
| NetworkGameManager.CorrectedElectsAmongRemaining | Source/NakamaFNAPong/NakamaMultiplayer/NetworkGameManager.cs:130-131 | The corrected election's host carries the least session id among the presences that stay. |
| NetworkGameManager.QuitMatch | Source/NakamaFNAPong/NakamaMultiplayer/NetworkGameManager.cs:181-198 | Quitting clears the current match and the local presence and empties the player map. The host presence is kept. |
| NetworkGameManager.QuitEndsHosting | Source/NakamaFNAPong/NakamaMultiplayer/NetworkGameManager.cs:188-197 | After quitting this peer is not host (unless the kept host's session id is "user"), and all incoming state is ignored. |
| NetworkGameManager.OnReceivedMatchState | Source/NakamaFNAPong/NakamaMultiplayer/NetworkGameManager.cs:146-176 | State is ignored from an unknown session, from the local player, or with an unknown operation code. Otherwise the payload is decoded by its code's decoder and the matching event is raised, carrying fields that the payload begins with. A short payload is a read failure. |
| NetworkGameManager.StateDelivered | Source/NakamaFNAPong/NakamaMultiplayer/NetworkGameManager.cs:256-310 | What a remote player writes for each operation code arrives as that code's event, carrying the same fields. |
| GoalScoredSync.Wrap32 | Source/NakamaFNAPong/Gameplay/Systems/GoalScoredLocalSyncSystem.cs:44-45 | The C# `int` addition wraps to the 32-bit range. The result is congruent to the exact sum modulo 2^32, and equals it when it fits. |
| GoalScoredSync.WrapThenAdd | Source/NakamaFNAPong/Gameplay/Systems/GoalScoredLocalSyncSystem.cs:44-45 | Wrapping an intermediate total does not change the final wrapped total. |
| GoalScoredSync.AccumulateIsWrappedSum | Source/NakamaFNAPong/Gameplay/Systems/GoalScoredLocalSyncSystem.cs:40-46 | Each player's new total is their old total plus the sum of their own increments, wrapped once. The two players' increments never mix. |
| GoalScoredSync.NoOverflowExactSum | Source/NakamaFNAPong/Gameplay/Systems/GoalScoredLocalSyncSystem.cs:40-46 | Without overflow, the new totals are the exact sums. |
| GoalScoredSync.Update | Source/NakamaFNAPong/Gameplay/Systems/GoalScoredLocalSyncSystem.cs:33-55 | A non-host changes nothing and sends nothing. The host sends exactly one score event exactly when there was at least one goal message, and it carries the new totals. |
| GoalScoredSync.SentScoreIsTotals | Source/NakamaFNAPong/Gameplay/Systems/GoalScoredLocalSyncSystem.cs:52-54 | The sent score event decodes to the host's new totals, not to the increments. |
| EcsManager.EntityOf | Source/NakamaFNAPong/NakamaMultiplayer/ECSManager.cs:143-146 | A session maps to an entity exactly when the mapper holds one for it. Otherwise the lookup gives the invalid entity. |
| EcsManager.RemovePlayerBySessionId | Source/NakamaFNAPong/NakamaMultiplayer/ECSManager.cs:174 | The session is forgotten and every other session keeps its entity. |
| EcsManager.SpawnLocalPlayer | Source/NakamaFNAPong/NakamaMultiplayer/ECSManager.cs:117-128 | A local spawn for player one, at the given point and bounce direction, joins the back of the local-spawn queue. |
| EcsManager.SpawnRemotePlayer | Source/NakamaFNAPong/NakamaMultiplayer/ECSManager.cs:130-139 | A remote spawn for player two joins the back of the remote-spawn queue. |
| EcsManager.ReceivedRemotePaddleState | Source/NakamaFNAPong/NakamaMultiplayer/ECSManager.cs:141-157 | A paddle state for an unmapped session leaves every queue unchanged. Otherwise exactly one message joins the back of the paddle queue, addressed to the mapped entity and carrying the packet's fields unchanged. |
| EcsManager.ReceivedRemoteBallState | Source/NakamaFNAPong/NakamaMultiplayer/ECSManager.cs:159-165 | A ball state always adds exactly one message to the back of the ball queue, and nothing else changes. |
| EcsManager.DestroyEntity | Source/NakamaFNAPong/NakamaMultiplayer/ECSManager.cs:167-180 | An unknown session is a no-op. A known session is removed from the mapper and its entity joins the destroy queue. |
| EcsManager.DestroyTwiceIsDestroyOnce | Source/NakamaFNAPong/NakamaMultiplayer/ECSManager.cs:167-180 | Destroying the same session twice queues its entity once. |
| EcsManager.SendMessages | Source/NakamaFNAPong/NakamaMultiplayer/ECSManager.cs:201-205 | Draining one queue empties it and sends its messages in queue order. |
| EcsManager.SendAllQueuedMessages | Source/NakamaFNAPong/NakamaMultiplayer/ECSManager.cs:192-199 | The drain leaves all five queues empty. It sends exactly their contents: local spawns, remote spawns, paddle states, ball states, destructions. |
| EcsManager.DrainIsOrdered | Source/NakamaFNAPong/NakamaMultiplayer/ECSManager.cs:192-199 | No drained message from a later queue comes before one from an earlier queue. |
| EcsManager.DrainIsFifo | Source/NakamaFNAPong/NakamaMultiplayer/ECSManager.cs:192-205 | The drained messages of each kind are exactly that queue, first-in first-out. |
| EcsManager.DrainedPaddleMessages | Source/NakamaFNAPong/NakamaMultiplayer/ECSManager.cs:192-205 | The paddle systems read back exactly the queued paddle states, in queue order. |
| EcsManager.RemotePaddlePipeline | Source/NakamaFNAPong/NakamaMultiplayer/ECSManager.cs:82-88 | The remote-paddle systems (reset smoothing, sync, apply prediction, update remote, in the list's order) neither add nor remove an entity, given a sync system that writes only simulation states. |
| EcsManager.PipelineResetsMessaged | Source/NakamaFNAPong/NakamaMultiplayer/ECSManager.cs:82-88 | An entity messaged this frame leaves the pipeline with its factor restarted and decayed once if smoothing is on. If smoothing is off, its factor is 0 and it shows its simulation state. |
| EcsManager.Update | Source/NakamaFNAPong/NakamaMultiplayer/ECSManager.cs:182-190 | The queues are drained before the systems run. Afterwards every queue is empty, and the frame's messages are exactly the drained queues in drain order. |
| EcsManager.QueuedStateActsThisFrame | Source/NakamaFNAPong/NakamaMultiplayer/ECSManager.cs:182-189 | A paddle state queued before a frame acts in that same frame. With smoothing on, its entity ends the frame with the factor restarted at 1 and decayed once. With smoothing off, the factor is 0 and the entity shows its simulation state. |
| PlayGamePhase.CsRem | Source/NakamaFNAPong/Gameplay/GamePhases/PlayGamePhase.cs:129 | C#'s remainder takes the dividend's sign. For a non-negative dividend it is Dafny's `%`. |
| PlayGamePhase.PrepareNextPlayer | Source/NakamaFNAPong/Gameplay/GamePhases/PlayGamePhase.cs:126-131 | The slot advances modulo 2, the bounce direction flips, and nothing else changes. A valid slot paired with its bounce direction (left −1, right +1) stays valid and paired. |
| PlayGamePhase.TwoSpawnsRestore | Source/NakamaFNAPong/Gameplay/GamePhases/PlayGamePhase.cs:126-131 | Two spawns bring the slot and the bounce direction back to where they were. |
| PlayGamePhase.OnSpawnedLocalPlayer | Source/NakamaFNAPong/Gameplay/GamePhases/PlayGamePhase.cs:106-113 | A local spawn is queued at the current slot's point with the current bounce direction, then the slot advances. The mapper and score are untouched. |
| PlayGamePhase.AddPlayer | Source/NakamaFNAPong/Gameplay/GamePhases/PlayGamePhase.cs:121 | Registering a session gives it the player index and leaves every other session's registration alone. |
| PlayGamePhase.OnSpawnedRemotePlayer | Source/NakamaFNAPong/Gameplay/GamePhases/PlayGamePhase.cs:115-124 | A remote spawn is queued at the current slot, the session is registered as player two, and the slot advances. |
| PlayGamePhase.OnReceivedRemoteScore | Source/NakamaFNAPong/Gameplay/GamePhases/PlayGamePhase.cs:143-147 | Both totals are overwritten with the received ones, whatever they were and whoever is host. Nothing else changes. |
| PlayGamePhase.Handle | Source/NakamaFNAPong/Gameplay/GamePhases/PlayGamePhase.cs:61-66 | Each manager event goes to its handler. Only a score changes the totals. Only a remote spawn or a removal changes the mapper. Only spawns move the slot. |
| PlayGamePhase.HandleAll | Source/NakamaFNAPong/Gameplay/GamePhases/PlayGamePhase.cs:44-45 | Starting from the initial slot 0 with bounce −1, any sequence of events keeps the slot a valid index paired with its bounce direction, so every spawn can index the spawn points. |
| PlayGamePhase.SpawnPointsMirror | Source/NakamaFNAPong/Gameplay/GamePhases/PlayGamePhase.cs:37-42 | The two spawn points are (32, 226) and (SCREEN_WIDTH − 32, 226): mirrored about the centre line, half way down. |
| PlayGamePhase.FirstTwoSpawns | Source/NakamaFNAPong/Gameplay/GamePhases/PlayGamePhase.cs:106-131 | The first spawn gets the left point with bounce −1 and the second the right point with bounce +1. After both, the slot is back at the start. |
| PlayGamePhase.ScoreReachesPeer | Source/NakamaFNAPong/Gameplay/GamePhases/PlayGamePhase.cs:143-147 | When the host's goal sync sends new totals, a peer that knows the host as a remote player decodes the score event, and its handler sets its totals to the host's. |

## Left out

- Transport and I/O: connecting, joining, leaving and sending (`JoinMatchAsync`,
  `LeaveMatchAsync`, `SendMatchStateAsync`). Sends are returned as outgoing packets, and the
  joined match is an input.
- The main-thread dispatcher and synchronisation context. They only marshal callbacks across
  threads, and the model handles one event at a time. The one exception is
  `OnReceivedMatchmakerMatched`, an `async void` handler split by `await JoinMatchAsync`
  (NetworkGameManager.cs:111). It is modelled as two steps, `MatchedBeforeJoin` and
  `MatchJoined`, and `HostLeavesBeforeJoin` and `QuitBeforeJoin` show two events that can
  run between them.
- NetworkGameManager.OnReceivedMatchmakerMatched: runs the two halves back to back. Other
  interleavings are not enumerated. The game's code never installs the synchronisation
  context, so the continuation could also run on a thread-pool thread, concurrently with
  other handlers. Concurrent access is not modelled.
- Sends without a current match. Both `SendMatchState` overloads dereference
  `_currentMatch.Id` (NetworkGameManager.cs:317-330), so the C# wrapper throws a null
  dereference when no match is current. This can happen on a frame that runs between the
  matchmaker handler's two halves: the game switches to the play phase before the join
  completes (NakamaFNAPongGame.cs:65-71). It can also happen on the update that follows
  `QuitMatch` in the same frame (PlayGamePhase.cs:74-84). The model assumes a current match
  for every send, and the two systems that send return their packets unconditionally.
- GoalScoredSync.Update: returns the score packet even when no match is current, where the C#
  send would throw a null dereference.
- SendLocalStateSystem.Update: returns its paddle packets even when no match is current, where
  the C# send would throw a null dereference.
- ApplyPredictionSystem.SecondsToTicks: ticks are unbounded integers. `TimeSpan` holds a 64-bit
  tick count. `TimeSpan.FromSeconds` throws on NaN and beyond about ±9.2e11 seconds, and the
  `latency +=` addition can overflow (PlayerNetworkRemoteApplyPredictionSystem.cs:63). Only a
  peer timestamp far outside any real clock reaches these bounds, and the model converts it
  anyway.
- Rendering, content, input polling and menu flow: `Draw`, the `ECSManager` constructor's
  spawn messages, `PlayGamePhase.OnUpdate`/`OnDraw`/`QuitMatch`, the main menu and `BaseGame`.
- The paddle step (`UpdateState`), the remote sync system and the smoothing blend
  (`PlayerNetworkRemoteApplySmoothingSystem`). Their code is not part of this model:
  - the step is a function parameter;
  - the sync system is a parameter assumed to write only simulation states;
  - the blend is not modelled, so while the factor is positive the display state is whatever
    the update-remote system left.
- The other systems in the ECS list (spawning, input, movement, collisions, bounce, ball sync,
  lerp, entity destruction). `GoalScoredSync` and `SendLocalStateSystem` are modelled on their
  own. They run before the remote-paddle systems and share no state with them.
- The packet byte layout and endianness (`PacketReader`/`PacketWriter`). A packet is a
  sequence of typed fields, and a read past the end is a read failure.
- Mistyped reads. In the model, a field of another kind where one is expected makes the read
  fail. The reader in the source reinterprets whatever bytes are there: the 44-byte paddle
  buffer read under the score opcode, for example, decodes as two integers.
- The score payload. The host passes `MatchDataJson.Score(...)` to `SendMatchState`. The
  game's `MatchDataJson` class defines no `Score`, so the game's code does not show what it
  returns. Its other builders return JSON strings, and a string would go through the string
  overload of `SendMatchState` (NetworkGameManager.cs:317-320). The receiver reads two 32-bit
  integers, and the model sends the two integers the receiver reads.
- PlayGamePhase.ScoreReachesPeer: holds for the substituted two-integer payload only. If
  `MatchDataJson.Score` returns a JSON string like the other builders, the peer's two
  `ReadInt32` calls would read the string's bytes, and the totals would not arrive as sent.
- SendLocalStateSystem.SendOne: the payload is the fields written since the writer's reset.
  The system sends `GetBuffer()`, the writer's whole underlying buffer (a 44-byte stream), so
  the receiver also gets whatever trailing bytes the buffer holds. The decoder reads only the
  leading fields, which `Packets.PaddleRoundTrip` covers for any trailing content.
- Floating-point rounding. Floats are exact reals, and no claim is made about rounding or
  float-to-double conversions.
- The culture-sensitive string comparer behind `OrderBy`. It is a parameter assumed to be a
  strict total order.
- Colours and input keys in the spawn messages, and the `_localPlayer` field and
  `player.Destroy()` calls in `NetworkGameManager`. None affects the modelled state.
- `PlayerEntityMapper`. Its code is not part of this model:
  - it is a pair of maps;
  - `AddPlayer` overwrites an existing registration;
  - a mapped entity is assumed never to equal `INVALID_ENTITY`;
  - the spawn system that fills in entities is not modelled.
- ApplyPredictionSystem.ClockDeltaOf: the new average's window is a parameter `window` (> 0).
  The system constructs it with no argument while the class's only constructor takes the
  capacity. The class comment says "the last 100 packets", recorded as `CLOCK_DELTA_SAMPLES`.
- EcsManager.Update: per-system enable switches are parameters. The play phase calls toggles
  and an `Update(gameTime)` overload that the ECS manager as written does not define.
- RollingAverages.RollingAverageBuffer.AddValue: its contract relates the object's state
  before and after the call, so it is stated against the functional model rather than as a
  standalone property.

An entity's first packet has deviation 0, because the delta is added to the average before
the average is read (PlayerNetworkRemoteApplyPredictionSystem.cs:45-63).

## Findings

| source | as written | input that shows it | evidently intended | confidence | as-written member | corrected member |
|---|---|---|---|---|---|---|
| Source/NakamaFNAPong/NakamaMultiplayer/NetworkGameManager.cs:130-131 | When the host leaves, the new host is the least session id in `_currentMatch.Presences`. That list is the one captured at join time and never updated, so it still holds the leaver. | The match lists presences with session ids "a3", "b1", "c9" (ordinal order). Host "c9" leaves, and "a3" becomes host. Then "a3" leaves: `Leaves` contains the host, the least id in the stale list is "a3" again, and the departed user is re-elected. | The new host is the least session id among the presences that remain. With none remaining there is no host. | medium, not executed | NetworkGameManager.DepartingHostReelected | NetworkGameManager.OnReceivedMatchPresenceCorrected |

=== FILE: apply_prediction.dfy ===
/**
 `PlayerNetworkRemoteApplyPredictionSystem`: for each paddle packet received this tick,
 estimate how late it is from a per-entity rolling average of clock deltas, and fast-forward
 the entity's simulation state by whole frames to make up for that lateness.

 Time spans are `TimeSpan` ticks (10^7 per second). `TimeSpan.FromSeconds` converts by
 truncating toward zero, so the 1/60 s frame is 166666 ticks and the 1/20 s baseline latency
 is 500000 ticks.
 */
module ApplyPredictionSystem {
  import opened Types
  import opened RollingAverages
  import opened RemotePaddles

  const TICKS_PER_SECOND: int := 10_000_000

  /** `TimeSpan.FromSeconds(1.0 / 60.0)`. */
  const ONE_FRAME_TICKS: int := 166_666

  /** `TimeSpan.FromSeconds(1 / 20.0f)`: the latency estimate before the per-packet deviation. */
  const BASELINE_LATENCY_TICKS: int := 500_000

  /** The window the class comment gives each clock-delta average: the last 100 packets.
      The constructor call in the system passes no window, so the operations below take the
      window as a parameter. */
  const CLOCK_DELTA_SAMPLES: nat := 100

  /** `TimeSpan.FromSeconds`: seconds to ticks, truncating toward zero. */
  function SecondsToTicks(seconds: real): (r: int)
    ensures seconds >= 0.0 ==> r as real <= seconds * TICKS_PER_SECOND as real < r as real + 1.0
    ensures seconds < 0.0 ==> r as real - 1.0 < seconds * TICKS_PER_SECOND as real <= r as real
  {
    var t := seconds * TICKS_PER_SECOND as real;
    if t >= 0.0 then t.Floor else -((-t).Floor)
  }

  /** The prediction state the system owns beside the world: the clock-delta averages. */
  type ClockDeltas = map<Entity, RollingAverage>

  /** Every clock-delta average can take a value (its cursor indexes a slot). */
  predicate Addable(clockDeltas: ClockDeltas)
  {
    forall e :: e in clockDeltas ==> clockDeltas[e].position < |clockDeltas[e].samples|
  }

  /** How many frames the catch-up loop steps for a latency: whole frames of a non-negative
      latency, none for a negative one. */
  function CatchUpFrames(latency: int): nat
  {
    if latency < ONE_FRAME_TICKS then 0 else latency / ONE_FRAME_TICKS
  }

  /**
   The catch-up loop: while the latency is at least one frame, step the state and take a
   frame off the latency. Returns the stepped state and the residual latency.
   */
  function CatchUp(step: Stepper, e: Entity, latency: int, s: PaddleState): (r: (PaddleState, int))
    ensures r.0 == Iterate(step, e, CatchUpFrames(latency), s)
    ensures r.1 < ONE_FRAME_TICKS
    ensures latency >= 0 ==> 0 <= r.1 && latency == CatchUpFrames(latency) * ONE_FRAME_TICKS + r.1
    ensures latency < ONE_FRAME_TICKS ==> r == (s, latency)
    decreases latency
  {
    if latency >= ONE_FRAME_TICKS then
      var rest := CatchUp(step, e, latency - ONE_FRAME_TICKS, step(e, s));
      assert CatchUpFrames(latency) == CatchUpFrames(latency - ONE_FRAME_TICKS) + 1;
      rest
    else (s, latency)
  }

  /** The clock-delta average of an entity: the existing one, or a new one on its first message. */
  function ClockDeltaOf(clockDeltas: ClockDeltas, e: Entity, window: nat): (r: RollingAverage)
    ensures e in clockDeltas ==> r == clockDeltas[e]
    ensures e !in clockDeltas ==> r == New(window)
  {
    if e in clockDeltas then clockDeltas[e] else New(window)
  }

  /** The outcome of one message: the updated average, the per-packet deviation and the
      latency the catch-up loop starts from. */
  datatype Estimate = Estimate(average: RollingAverage, deviation: real, latency: int)

  /**
   The latency estimate for one packet: the clock delta `localTime - totalSeconds` is added to
   the average first, and only then is the average read to compute the deviation.
   */
  function EstimateLatency(average: RollingAverage, localTime: real, totalSeconds: real): (r: Estimate)
    requires average.position < |average.samples|
    ensures r.average == average.AddValue(localTime - totalSeconds)
    ensures r.deviation == (localTime - totalSeconds) - r.average.AverageValue()
    ensures r.latency == BASELINE_LATENCY_TICKS + SecondsToTicks(r.deviation)
  {
    var timeDelta := localTime - totalSeconds;
    var updated := average.AddValue(timeDelta);
    var deviation := timeDelta - updated.AverageValue();
    Estimate(updated, deviation, BASELINE_LATENCY_TICKS + SecondsToTicks(deviation))
  }

  /** On an entity's first packet the average holds just that packet's delta, so the deviation
      is exactly 0 and the latency is the baseline: three frames of catch-up. */
  lemma FirstPacketHasNoDeviation(window: nat, localTime: real, totalSeconds: real)
    requires window > 0
    ensures EstimateLatency(New(window), localTime, totalSeconds).deviation == 0.0
    ensures EstimateLatency(New(window), localTime, totalSeconds).latency == BASELINE_LATENCY_TICKS
    ensures CatchUpFrames(BASELINE_LATENCY_TICKS) == 3
  {
    var initial := New(window);
    NewIsValid(window);
    IncrementalSumAgrees(initial, localTime - totalSeconds);
    var r := EstimateLatency(initial, localTime, totalSeconds);
    assert r.average.sampleCount == 1;
  }

  /** The state after one message. */
  datatype Prediction = Prediction(world: World, clockDeltas: ClockDeltas)

  /** The estimate for message `m` against the clock-delta averages before it. */
  function MessageEstimate(clockDeltas: ClockDeltas, window: nat, m: PaddleMessage, localTime: real): Estimate
    requires Addable(clockDeltas) && window > 0
  {
    EstimateLatency(ClockDeltaOf(clockDeltas, m.entity, window), localTime, m.totalSeconds)
  }

  /** One message: its clock delta goes into its entity's average (created on the first
      message; every other entity's average is untouched) and its entity's simulation state,
      and nothing else, is stepped as many whole
      frames as the estimated latency holds (`ApplyMessageEffect` gives the exact values). */
  function ApplyMessage(st: Prediction, window: nat, m: PaddleMessage, localTime: real, step: Stepper): (r: Prediction)
    requires m.entity in st.world && Addable(st.clockDeltas) && window > 0
    ensures Addable(r.clockDeltas)
    ensures r.world.Keys == st.world.Keys
    ensures r.clockDeltas.Keys == st.clockDeltas.Keys + {m.entity}
    ensures forall e :: e in st.world ==> r.world[e] == st.world[e].(simulation := r.world[e].simulation)
    ensures forall e :: e in st.world && e != m.entity ==> r.world[e] == st.world[e]
    ensures forall e :: e in st.clockDeltas && e != m.entity ==> r.clockDeltas[e] == st.clockDeltas[e]
  {
    var e := m.entity;
    var est := MessageEstimate(st.clockDeltas, window, m, localTime);
    var paddle := st.world[e];
    var deltas := st.clockDeltas[e := est.average];
    assert Addable(deltas) by {
      assert deltas[e].position < |deltas[e].samples|;
    }
    Prediction(st.world[e := paddle.(simulation := CatchUp(step, e, est.latency, paddle.simulation).0)], deltas)
  }

  /** The values one message leaves behind: its entity's average has taken the clock delta,
      and its entity's simulation state has been stepped `CatchUpFrames` of the estimated
      latency times. */
  lemma ApplyMessageEffect(st: Prediction, window: nat, m: PaddleMessage, localTime: real, step: Stepper)
    requires m.entity in st.world && Addable(st.clockDeltas) && window > 0
    ensures var r := ApplyMessage(st, window, m, localTime, step);
      && r.clockDeltas[m.entity] == ClockDeltaOf(st.clockDeltas, m.entity, window).AddValue(localTime - m.totalSeconds)
      && r.world[m.entity].simulation ==
           Iterate(step, m.entity, CatchUpFrames(MessageEstimate(st.clockDeltas, window, m, localTime).latency), st.world[m.entity].simulation)
  {
  }

  /**
   One run of the system. `localTime` is the seconds of the tick length the system is
   updated with. With prediction disabled nothing changes; otherwise each message, in order,
   feeds its entity's clock-delta average and fast-forwards that entity's simulation state.
   */
  function Update(enablePrediction: bool, st: Prediction, window: nat, msgs: seq<PaddleMessage>, localTime: real, step: Stepper): (r: Prediction)
    requires Addressed(st.world, msgs) && Addable(st.clockDeltas) && window > 0
    ensures !enablePrediction ==> r == st
    ensures Addable(r.clockDeltas)
    ensures r.world.Keys == st.world.Keys
    ensures enablePrediction ==> r.clockDeltas.Keys == st.clockDeltas.Keys + MessageEntities(msgs)
    ensures forall e :: e in st.world ==> r.world[e] == st.world[e].(simulation := r.world[e].simulation)
    ensures forall e :: e in st.world && e !in MessageEntities(msgs) ==> r.world[e] == st.world[e]
    ensures forall e :: e in st.clockDeltas && e !in MessageEntities(msgs) ==> r.clockDeltas[e] == st.clockDeltas[e]
    decreases |msgs|
  {
    if !enablePrediction || msgs == [] then st
    else
      MessageEntitiesCons(msgs);
      var next := ApplyMessage(st, window, msgs[0], localTime, step);
      AddressedTail(st.world, next.world, msgs);
      var r := Update(enablePrediction, next, window, msgs[1..], localTime, step);
      UnionRegroup(st.clockDeltas.Keys, msgs[0].entity, MessageEntities(msgs[1..]), next.clockDeltas.Keys, r.clockDeltas.Keys);
      r
  }

  lemma UnionRegroup(before: set<Entity>, e: Entity, rest: set<Entity>, middle: set<Entity>, after: set<Entity>)
    requires middle == before + {e} && after == middle + rest
    ensures after == before + ({e} + rest)
  {
  }

  /** A single packet for an entity with no clock-delta average yet steps its simulation
      state exactly three frames and creates its average. */
  lemma FirstPacketStepsThreeFrames(st: Prediction, window: nat, m: PaddleMessage, localTime: real, step: Stepper)
    requires m.entity in st.world && Addable(st.clockDeltas) && m.entity !in st.clockDeltas && window > 0
    ensures var r := Update(true, st, window, [m], localTime, step);
      && r.world[m.entity].simulation == Iterate(step, m.entity, 3, st.world[m.entity].simulation)
      && r.clockDeltas[m.entity].sampleCount == 1
  {
    FirstPacketHasNoDeviation(window, localTime, m.totalSeconds);
    ApplyMessageEffect(st, window, m, localTime, step);
    assert Update(true, st, window, [m], localTime, step) == Update(true, ApplyMessage(st, window, m, localTime, step), window, [], localTime, step);
  }

  /** A latency below one frame, negative ones included, leaves the simulation state alone;
      a latency of k whole frames plus a remainder steps it exactly k times. */
  lemma CatchUpCount(step: Stepper, e: Entity, k: nat, remainder: int, s: PaddleState)
    requires 0 <= remainder < ONE_FRAME_TICKS
    ensures CatchUp(step, e, k * ONE_FRAME_TICKS + remainder, s) == (Iterate(step, e, k, s), remainder)
  {
    var r := CatchUp(step, e, k * ONE_FRAME_TICKS + remainder, s);
    assert CatchUpFrames(k * ONE_FRAME_TICKS + remainder) == k;
  }
}

=== FILE: ecs_manager.dfy ===
/**
 `ECSManager`: the bridge between the network events and the ECS world. Network handlers do not
 touch the world directly; they put messages on five queues (local spawns, remote spawns,
 remote paddle states, ball states, entity destructions). Each frame the queues are drained
 into the world, in that order and first-in first-out within each queue, before any system
 runs; the systems then read the messages sent this frame.

 The player/entity mapper is a class whose code is not part of this model: it is a map from
 session ids to player indices and to the entities the spawn system gave them, and a missing
 entry plays the part of `INVALID_ENTITY`.
 */
module EcsManager {
  import opened Types
  import opened Packets
  import opened RemotePaddles
  import opened RollingAverages
  import ApplyPredictionSystem
  import ResetSmoothingSystem
  import UpdateRemoteSystem

  /** `PlayerEntityMapper`: the player index registered for each session, and the entity the
      spawn system created for it. */
  datatype Mapper = Mapper(indices: map<SessionId, PlayerIndex>, entities: map<SessionId, Entity>)

  const EMPTY_MAPPER: Mapper := Mapper(map[], map[])

  /** `GetEntityFromSessionId`: `None` is `INVALID_ENTITY`. */
  function EntityOf(mapper: Mapper, sessionId: SessionId): (r: Option<Entity>)
    ensures r.Some? <==> sessionId in mapper.entities
    ensures r.Some? ==> r.value == mapper.entities[sessionId]
  {
    if sessionId in mapper.entities then Some(mapper.entities[sessionId]) else None
  }

  /** `RemovePlayerBySessionId`: the session is forgotten. */
  function RemovePlayerBySessionId(mapper: Mapper, sessionId: SessionId): (r: Mapper)
    ensures sessionId !in r.indices && sessionId !in r.entities
    ensures forall s :: s != sessionId && s in mapper.entities ==> s in r.entities && r.entities[s] == mapper.entities[s]
    ensures r.entities.Keys == mapper.entities.Keys - {sessionId}
  {
    Mapper(mapper.indices - {sessionId}, mapper.entities - {sessionId})
  }

  /** The spawn requests, without their colours and input keys. */
  datatype LocalPlayerSpawnMessage = LocalPlayerSpawnMessage(playerIndex: PlayerIndex, position: Vector2, bounceDirection: int)

  datatype RemotePlayerSpawnMessage = RemotePlayerSpawnMessage(playerIndex: PlayerIndex, position: Vector2, bounceDirection: int)

  /** `MatchDataDirectionAndPositionMessage`: a remote ball state. */
  datatype DirectionAndPositionMessage = DirectionAndPositionMessage(direction: real, position: Vector2)

  /** A message sent into the world. */
  datatype Message =
    | LocalSpawn(local: LocalPlayerSpawnMessage)
    | RemoteSpawn(remote: RemotePlayerSpawnMessage)
    | PaddleUpdate(paddle: PaddleMessage)
    | BallUpdate(ball: DirectionAndPositionMessage)
    | Destroy(entity: Entity)

  /** The rank of a message's queue in the drain order. */
  function Kind(m: Message): (k: nat)
    ensures k < 5
  {
    match m
    case LocalSpawn(_) => 0
    case RemoteSpawn(_) => 1
    case PaddleUpdate(_) => 2
    case BallUpdate(_) => 3
    case Destroy(_) => 4
  }

  /** The five queues; the head of a queue is at index 0. */
  datatype Queues = Queues(
    local: seq<LocalPlayerSpawnMessage>,
    remote: seq<RemotePlayerSpawnMessage>,
    paddle: seq<PaddleMessage>,
    ball: seq<DirectionAndPositionMessage>,
    destroy: seq<Entity>)

  const EMPTY_QUEUES: Queues := Queues([], [], [], [], [])

  /** The packet fields a paddle message carries. */
  function FieldsOf(m: PaddleMessage): PaddleFields
  {
    PaddleFields(m.totalSeconds, m.position, m.velocity, m.moveUp, m.moveDown)
  }

  /** `SpawnLocalPlayer`: a local spawn for player one is queued. */
  function SpawnLocalPlayer(q: Queues, position: Vector2, bounceDirection: int): (r: Queues)
    ensures r == q.(local := q.local + [LocalPlayerSpawnMessage(One, position, bounceDirection)])
  {
    q.(local := q.local + [LocalPlayerSpawnMessage(One, position, bounceDirection)])
  }

  /** `SpawnRemotePlayer`: a remote spawn for player two is queued. */
  function SpawnRemotePlayer(q: Queues, position: Vector2, bounceDirection: int): (r: Queues)
    ensures r == q.(remote := q.remote + [RemotePlayerSpawnMessage(Two, position, bounceDirection)])
  {
    q.(remote := q.remote + [RemotePlayerSpawnMessage(Two, position, bounceDirection)])
  }

  /**
   `ReceivedRemotePaddleState`: a paddle state from a session with no entity is dropped and no
   queue changes; otherwise exactly one message is queued, addressed to the session's entity and
   carrying the packet's fields unchanged.
   */
  function ReceivedRemotePaddleState(q: Queues, mapper: Mapper, p: PaddleFields, sessionId: SessionId): (r: Queues)
    ensures sessionId !in mapper.entities ==> r == q
    ensures sessionId in mapper.entities ==>
      && r == q.(paddle := r.paddle)
      && |r.paddle| == |q.paddle| + 1 && r.paddle[..|q.paddle|] == q.paddle
      && r.paddle[|q.paddle|].entity == mapper.entities[sessionId]
      && FieldsOf(r.paddle[|q.paddle|]) == p
  {
    match EntityOf(mapper, sessionId)
    case None => q
    case Some(entity) =>
      var m := PaddleMessage(entity, p.totalSeconds, p.position, p.velocity, p.moveUp, p.moveDown);
      assert (q.paddle + [m])[..|q.paddle|] == q.paddle;
      q.(paddle := q.paddle + [m])
  }

  /** `ReceivedRemoteBallState`: the ball state is always queued, and nothing else changes. */
  function ReceivedRemoteBallState(q: Queues, direction: real, position: Vector2): (r: Queues)
    ensures r == q.(ball := r.ball)
    ensures |r.ball| == |q.ball| + 1 && r.ball[..|q.ball|] == q.ball
    ensures r.ball[|q.ball|] == DirectionAndPositionMessage(direction, position)
  {
    assert (q.ball + [DirectionAndPositionMessage(direction, position)])[..|q.ball|] == q.ball;
    q.(ball := q.ball + [DirectionAndPositionMessage(direction, position)])
  }

  /**
   `DestroyEntity`: an unknown session changes nothing. A known session is removed from the
   mapper and its entity is queued for destruction; every other queue is untouched.
   */
  function DestroyEntity(q: Queues, mapper: Mapper, sessionId: SessionId): (r: (Queues, Mapper))
    ensures sessionId !in mapper.entities ==> r == (q, mapper)
    ensures sessionId in mapper.entities ==>
      && r.0 == q.(destroy := q.destroy + [mapper.entities[sessionId]])
      && r.1 == RemovePlayerBySessionId(mapper, sessionId)
  {
    match EntityOf(mapper, sessionId)
    case None => (q, mapper)
    case Some(entity) => (q.(destroy := q.destroy + [entity]), RemovePlayerBySessionId(mapper, sessionId))
  }

  /** A second removal of the same session is a no-op: each entity is queued for destruction
      at most once per session. */
  lemma DestroyTwiceIsDestroyOnce(q: Queues, mapper: Mapper, sessionId: SessionId)
    ensures var once := DestroyEntity(q, mapper, sessionId);
      DestroyEntity(once.0, once.1, sessionId) == once
  {
  }

  /** Each element of a queue as the message it is sent as. */
  function Wrapped<T>(queue: seq<T>, wrap: T -> Message): (r: seq<Message>)
    ensures |r| == |queue|
    ensures forall i :: 0 <= i < |queue| ==> r[i] == wrap(queue[i])
  {
    seq(|queue|, i requires 0 <= i < |queue| => wrap(queue[i]))
  }

  /** Queue `k` of the drain order, as the messages it is sent as. */
  function Block(q: Queues, k: nat): (r: seq<Message>)
    requires k < 5
    ensures forall i :: 0 <= i < |r| ==> Kind(r[i]) == k
  {
    if k == 0 then Wrapped(q.local, m => LocalSpawn(m))
    else if k == 1 then Wrapped(q.remote, m => RemoteSpawn(m))
    else if k == 2 then Wrapped(q.paddle, m => PaddleUpdate(m))
    else if k == 3 then Wrapped(q.ball, m => BallUpdate(m))
    else Wrapped(q.destroy, e => Destroy(e))
  }

  /** What the drain sends, in order: the five queues one after the other. */
  function Forwarded(q: Queues): seq<Message>
  {
    Block(q, 0) + Block(q, 1) + Block(q, 2) + Block(q, 3) + Block(q, 4)
  }

  /** `SendMessages`: dequeue until the queue is empty, sending each message. */
  method SendMessages<T>(queue: seq<T>, wrap: T -> Message) returns (remaining: seq<T>, sent: seq<Message>)
    ensures remaining == []
    ensures |sent| == |queue|
    ensures forall i :: 0 <= i < |queue| ==> sent[i] == wrap(queue[i])
  {
    remaining := queue;
    sent := [];
    while |remaining| > 0
      invariant |sent| + |remaining| == |queue|
      invariant remaining == queue[|sent|..]
      invariant forall i :: 0 <= i < |sent| ==> sent[i] == wrap(queue[i])
      decreases |remaining|
    {
      var head := remaining[0];
      remaining := remaining[1..];
      sent := sent + [wrap(head)];
    }
  }

  /** `SendAllQueuedMessages`: all five queues end empty, and what was sent is exactly their
      contents in drain order. */
  method SendAllQueuedMessages(q: Queues) returns (r: Queues, sent: seq<Message>)
    ensures r == EMPTY_QUEUES
    ensures sent == Forwarded(q)
  {
    var local, s0 := SendMessages(q.local, m => LocalSpawn(m));
    var remote, s1 := SendMessages(q.remote, m => RemoteSpawn(m));
    var paddle, s2 := SendMessages(q.paddle, m => PaddleUpdate(m));
    var ball, s3 := SendMessages(q.ball, m => BallUpdate(m));
    var destroy, s4 := SendMessages(q.destroy, e => Destroy(e));
    r := Queues(local, remote, paddle, ball, destroy);
    sent := s0 + s1 + s2 + s3 + s4;
    assert s0 == Block(q, 0) && s1 == Block(q, 1) && s2 == Block(q, 2) && s3 == Block(q, 3) && s4 == Block(q, 4);
  }

  /** The messages of one kind, in the order they were sent. */
  function OfKind(msgs: seq<Message>, k: nat): (r: seq<Message>)
    ensures |r| <= |msgs|
    ensures forall i :: 0 <= i < |r| ==> Kind(r[i]) == k
  {
    if msgs == [] then []
    else if Kind(msgs[0]) == k then [msgs[0]] + OfKind(msgs[1..], k)
    else OfKind(msgs[1..], k)
  }

  lemma {:induction false} OfKindAppend(a: seq<Message>, b: seq<Message>, k: nat)
    ensures OfKind(a + b, k) == OfKind(a, k) + OfKind(b, k)
    decreases |a|
  {
    if a != [] {
      assert (a + b)[1..] == a[1..] + b;
      OfKindAppend(a[1..], b, k);
    } else {
      assert a + b == b;
    }
  }

  /** A block of messages all of kind `j` filters to itself for `j` and to nothing otherwise. */
  lemma {:induction false} OfKindBlock(block: seq<Message>, j: nat, k: nat)
    requires forall i :: 0 <= i < |block| ==> Kind(block[i]) == j
    ensures OfKind(block, k) == if j == k then block else []
    decreases |block|
  {
    if block != [] {
      OfKindBlock(block[1..], j, k);
      if j == k {
        assert [block[0]] + block[1..] == block;
      }
    }
  }

  /** The messages are in drain order: a message of an earlier queue never follows one of a
      later queue. */
  ghost predicate InDrainOrder(msgs: seq<Message>)
  {
    forall i, j :: 0 <= i < j < |msgs| ==> Kind(msgs[i]) <= Kind(msgs[j])
  }

  lemma OrderedAppend(a: seq<Message>, b: seq<Message>, k: nat)
    requires InDrainOrder(a) && InDrainOrder(b)
    requires forall i :: 0 <= i < |a| ==> Kind(a[i]) <= k
    requires forall i :: 0 <= i < |b| ==> Kind(b[i]) == k
    ensures InDrainOrder(a + b)
    ensures forall i :: 0 <= i < |a + b| ==> Kind((a + b)[i]) <= k
  {
    forall i, j | 0 <= i < j < |a + b|
      ensures Kind((a + b)[i]) <= Kind((a + b)[j])
    {
      if j < |a| {
        assert (a + b)[i] == a[i] && (a + b)[j] == a[j];
      } else if i < |a| {
        assert (a + b)[i] == a[i] && (a + b)[j] == b[j - |a|];
      } else {
        assert (a + b)[i] == b[i - |a|] && (a + b)[j] == b[j - |a|];
      }
    }
  }

  /** The drain forwards local spawns, remote spawns, paddle states, ball states and
      destructions in that order: a message of a later queue never precedes one of an earlier
      queue. */
  lemma DrainIsOrdered(q: Queues)
    ensures InDrainOrder(Forwarded(q))
  {
    OrderedAppend([], Block(q, 0), 0);
    assert [] + Block(q, 0) == Block(q, 0);
    OrderedAppend(Block(q, 0), Block(q, 1), 1);
    OrderedAppend(Block(q, 0) + Block(q, 1), Block(q, 2), 2);
    OrderedAppend(Block(q, 0) + Block(q, 1) + Block(q, 2), Block(q, 3), 3);
    OrderedAppend(Block(q, 0) + Block(q, 1) + Block(q, 2) + Block(q, 3), Block(q, 4), 4);
  }

  /** The filter of five consecutive blocks of kinds 0 to 4 keeps only block `k`. */
  lemma OfKindOfBlocks(b0: seq<Message>, b1: seq<Message>, b2: seq<Message>, b3: seq<Message>, b4: seq<Message>, k: nat)
    requires forall i :: 0 <= i < |b0| ==> Kind(b0[i]) == 0
    requires forall i :: 0 <= i < |b1| ==> Kind(b1[i]) == 1
    requires forall i :: 0 <= i < |b2| ==> Kind(b2[i]) == 2
    requires forall i :: 0 <= i < |b3| ==> Kind(b3[i]) == 3
    requires forall i :: 0 <= i < |b4| ==> Kind(b4[i]) == 4
    ensures OfKind(b0 + b1 + b2 + b3 + b4, k)
      == OfKind(b0, k) + OfKind(b1, k) + OfKind(b2, k) + OfKind(b3, k) + OfKind(b4, k)
  {
    OfKindAppend(b0, b1, k);
    OfKindAppend(b0 + b1, b2, k);
    OfKindAppend(b0 + b1 + b2, b3, k);
    OfKindAppend(b0 + b1 + b2 + b3, b4, k);
  }

  /** Each queue is forwarded first-in first-out: the drained messages of kind `k` are exactly
      queue `k`, in queue order. */
  lemma DrainIsFifo(q: Queues, k: nat)
    requires k < 5
    ensures OfKind(Forwarded(q), k) == Block(q, k)
  {
    OfKindOfBlocks(Block(q, 0), Block(q, 1), Block(q, 2), Block(q, 3), Block(q, 4), k);
    OfKindBlock(Block(q, 0), 0, k);
    OfKindBlock(Block(q, 1), 1, k);
    OfKindBlock(Block(q, 2), 2, k);
    OfKindBlock(Block(q, 3), 3, k);
    OfKindBlock(Block(q, 4), 4, k);
    OnlyBlock(OfKind(Block(q, 0), k), OfKind(Block(q, 1), k), OfKind(Block(q, 2), k),
              OfKind(Block(q, 3), k), OfKind(Block(q, 4), k), k, Block(q, k));
  }

  /** Five parts of which all but part `k` are empty concatenate to part `k`. */
  lemma OnlyBlock(p0: seq<Message>, p1: seq<Message>, p2: seq<Message>, p3: seq<Message>, p4: seq<Message>, k: nat, x: seq<Message>)
    requires k < 5
    requires p0 == (if k == 0 then x else []) && p1 == (if k == 1 then x else [])
    requires p2 == (if k == 2 then x else []) && p3 == (if k == 3 then x else [])
    requires p4 == (if k == 4 then x else [])
    ensures p0 + p1 + p2 + p3 + p4 == x
  {
    var none: seq<Message> := [];
    assert x + none == x && none + x == x && none + none == none;
  }

  /** `ReadMessages<ReceivedRemotePaddleStateMessage>()`: the paddle messages sent this frame,
      in the order they were sent. */
  function ReadPaddleMessages(msgs: seq<Message>): (r: seq<PaddleMessage>)
    ensures |r| == |OfKind(msgs, 2)|
    ensures forall i :: 0 <= i < |r| ==> OfKind(msgs, 2)[i] == PaddleUpdate(r[i])
  {
    var ps := OfKind(msgs, 2);
    seq(|ps|, i requires 0 <= i < |ps| => ps[i].paddle)
  }

  /** The paddle systems read exactly the paddle queue of the frame, in queue order. */
  lemma DrainedPaddleMessages(q: Queues)
    ensures ReadPaddleMessages(Forwarded(q)) == q.paddle
  {
    DrainIsFifo(q, 2);
  }

  /** Each system's own switch (all on by default): the reset system's smoothing, and the
      prediction of the apply-prediction and update-remote systems. */
  datatype Switches = Switches(enableSmoothing: bool, applyPrediction: bool, updateRemotePrediction: bool)

  const DEFAULT_SWITCHES: Switches := Switches(true, true, true)

  /** The part of the world the remote-paddle systems own: the paddles and the prediction
      system's clock-delta averages. */
  datatype Frame = Frame(queues: Queues, world: World, clockDeltas: ApplyPredictionSystem.ClockDeltas)

  /** `after` differs from `before` at most in simulation states: what the remote sync system
      (whose code is not part of this model) may write. */
  ghost predicate SimulationOnly(before: World, after: World)
  {
    && after.Keys == before.Keys
    && forall e :: e in before ==> after[e] == before[e].(simulation := after[e].simulation)
  }

  /** The remote sync system: it writes the simulation states from the frame's messages. */
  type SyncSystem = (World, seq<PaddleMessage>) -> World

  /**
   The remote-paddle part of the system list, in list order: reset smoothing, sync, apply
   prediction, update remote. The tick length `tickSeconds` is both the prediction system's
   local time and the update-remote system's decay base.
   */
  function RemotePaddlePipeline(sw: Switches, world: World, clockDeltas: ApplyPredictionSystem.ClockDeltas,
                                msgs: seq<PaddleMessage>, tickSeconds: real, window: nat,
                                sync: SyncSystem, step: Stepper): (r: (World, ApplyPredictionSystem.ClockDeltas))
    requires Addressed(world, msgs) && ApplyPredictionSystem.Addable(clockDeltas) && window > 0
    requires forall w: World, ms: seq<PaddleMessage> :: SimulationOnly(w, sync(w, ms))
    ensures r.0.Keys == world.Keys
  {
    var reset := ResetSmoothingSystem.Update(world, msgs, sw.enableSmoothing);
    var synced := sync(reset, msgs);
    assert SimulationOnly(reset, synced);
    var predicted := ApplyPredictionSystem.Update(sw.applyPrediction,
      ApplyPredictionSystem.Prediction(synced, clockDeltas), window, msgs, tickSeconds, step);
    (UpdateRemoteSystem.Update(predicted.world, tickSeconds, sw.updateRemotePrediction, step), predicted.clockDeltas)
  }

  /**
   `Update`: the queues are drained into the world first, then the systems run on what was
   sent. Afterwards every queue is empty and the world's messages for the frame are exactly the
   drained queues in drain order.
   */
  function Update(f: Frame, sw: Switches, tickSeconds: real, window: nat, sync: SyncSystem, step: Stepper): (r: (Frame, seq<Message>))
    requires Addressed(f.world, f.queues.paddle) && ApplyPredictionSystem.Addable(f.clockDeltas) && window > 0
    requires forall w: World, ms: seq<PaddleMessage> :: SimulationOnly(w, sync(w, ms))
    ensures r.0.queues == EMPTY_QUEUES
    ensures r.1 == Forwarded(f.queues)
    ensures r.0.world.Keys == f.world.Keys
  {
    var sent := Forwarded(f.queues);
    DrainedPaddleMessages(f.queues);
    var after := RemotePaddlePipeline(sw, f.world, f.clockDeltas, ReadPaddleMessages(sent), tickSeconds, window, sync, step);
    (Frame(EMPTY_QUEUES, after.0, after.1), sent)
  }

  /** A paddle message of the frame resets its entity's smoothing before the update-remote
      system decays it once; the sync and prediction systems in between leave it alone. */
  lemma PipelineResetsMessaged(sw: Switches, world: World, clockDeltas: ApplyPredictionSystem.ClockDeltas,
                               msgs: seq<PaddleMessage>, tickSeconds: real, window: nat,
                               sync: SyncSystem, step: Stepper, e: Entity)
    requires Addressed(world, msgs) && ApplyPredictionSystem.Addable(clockDeltas) && window > 0
    requires forall w: World, ms: seq<PaddleMessage> :: SimulationOnly(w, sync(w, ms))
    requires e in MessageEntities(msgs) && tickSeconds >= 0.0
    ensures var p := RemotePaddlePipeline(sw, world, clockDeltas, msgs, tickSeconds, window, sync, step).0[e];
      && (sw.enableSmoothing ==> p.smoothing == Some(UpdateRemoteSystem.Decay(1.0, UpdateRemoteSystem.SmoothingDecay(tickSeconds))))
      && (!sw.enableSmoothing ==> p.smoothing == Some(0.0) && p.display == p.simulation)
  {
    var reset := ResetSmoothingSystem.Update(world, msgs, sw.enableSmoothing);
    var synced := sync(reset, msgs);
    assert SimulationOnly(reset, synced);
    var predicted := ApplyPredictionSystem.Update(sw.applyPrediction,
      ApplyPredictionSystem.Prediction(synced, clockDeltas), window, msgs, tickSeconds, step);
    assert predicted.world[e].smoothing == reset[e].smoothing;
  }

  /**
   Draining before the systems run means a paddle state queued before the frame takes effect in
   the same frame: with smoothing on, its entity's factor restarts at 1 and has decayed once,
   and with it off, its factor is 0 and its display state is its simulation state.
   */
  lemma QueuedStateActsThisFrame(f: Frame, sw: Switches, tickSeconds: real, window: nat, sync: SyncSystem, step: Stepper, i: nat)
    requires Addressed(f.world, f.queues.paddle) && ApplyPredictionSystem.Addable(f.clockDeltas) && window > 0
    requires forall w: World, ms: seq<PaddleMessage> :: SimulationOnly(w, sync(w, ms))
    requires i < |f.queues.paddle| && tickSeconds >= 0.0
    ensures var e := f.queues.paddle[i].entity;
      var p := Update(f, sw, tickSeconds, window, sync, step).0.world[e];
      && (sw.enableSmoothing ==> p.smoothing == Some(UpdateRemoteSystem.Decay(1.0, UpdateRemoteSystem.SmoothingDecay(tickSeconds))))
      && (!sw.enableSmoothing ==> p.smoothing == Some(0.0) && p.display == p.simulation)
  {
    DrainedPaddleMessages(f.queues);
    PipelineResetsMessaged(sw, f.world, f.clockDeltas, f.queues.paddle, tickSeconds, window, sync, step, f.queues.paddle[i].entity);
  }
}

=== FILE: goal_scored_sync.dfy ===
/**
 `GoalScoredLocalSyncSystem`: on the host only, the goal messages of the tick are added to the
 shared score, and if there was at least one, a single score event carrying the new totals is
 sent to the other peers. Scores are C# `int`s: the additions wrap around at 32 bits.
 */
module GoalScoredSync {
  import opened Types
  import opened Packets

  /** `GoalScoredMessage`: the increments of one goal. */
  datatype GoalScoredMessage = GoalScoredMessage(player1Increment: int, player2Increment: int)

  const TWO_TO_THE_32: int := 0x1_0000_0000

  /** Unchecked 32-bit two's-complement wrap-around of an integer. */
  function Wrap32(x: int): (r: int)
    ensures INT32_MIN <= r <= INT32_MAX
    ensures (r - x) % TWO_TO_THE_32 == 0
    ensures INT32_MIN <= x <= INT32_MAX ==> r == x
  {
    (x - INT32_MIN) % TWO_TO_THE_32 + INT32_MIN
  }

  /** Wrapping an intermediate sum does not change the wrapped result. */
  lemma WrapThenAdd(a: int, b: int)
    ensures Wrap32(Wrap32(a) + b) == Wrap32(a + b)
  {
    var k := (Wrap32(a) - a) / TWO_TO_THE_32;
    assert Wrap32(a) == a + k * TWO_TO_THE_32;
    ShiftedWrap(a + b, k);
  }

  lemma ShiftedWrap(x: int, k: int)
    ensures Wrap32(x + k * TWO_TO_THE_32) == Wrap32(x)
  {
    var y := x - INT32_MIN;
    assert (y + k * TWO_TO_THE_32) % TWO_TO_THE_32 == y % TWO_TO_THE_32;
  }

  /** A player's total in a game state, and a player's increment in a goal message. */
  function Score(state: GameState, player: PlayerIndex): int
  {
    if player == One then state.player1Score else state.player2Score
  }

  function Increment(msg: GoalScoredMessage, player: PlayerIndex): int
  {
    if player == One then msg.player1Increment else msg.player2Increment
  }

  /** The sum of one player's increments over the messages. */
  function Total(msgs: seq<GoalScoredMessage>, player: PlayerIndex): int
  {
    if msgs == [] then 0 else Increment(msgs[0], player) + Total(msgs[1..], player)
  }

  /** Both totals are C# `int` values. */
  predicate Int32Scores(state: GameState)
  {
    && INT32_MIN <= state.player1Score <= INT32_MAX
    && INT32_MIN <= state.player2Score <= INT32_MAX
  }

  /** The `foreach` over the tick's messages: each message's increments, added with
      wrap-around. */
  function Accumulate(state: GameState, msgs: seq<GoalScoredMessage>): GameState
    decreases |msgs|
  {
    if msgs == [] then state
    else Accumulate(GameState(Wrap32(state.player1Score + msgs[0].player1Increment),
                              Wrap32(state.player2Score + msgs[0].player2Increment)), msgs[1..])
  }

  /** Each player's total after the loop is their starting total plus the sum of their own
      increments, wrapped once: the two players' increments do not mix. */
  lemma {:induction false} AccumulateIsWrappedSum(state: GameState, msgs: seq<GoalScoredMessage>, player: PlayerIndex)
    requires Int32Scores(state)
    ensures Score(Accumulate(state, msgs), player) == Wrap32(Score(state, player) + Total(msgs, player))
    decreases |msgs|
  {
    if msgs != [] {
      var next := GameState(Wrap32(state.player1Score + msgs[0].player1Increment),
                            Wrap32(state.player2Score + msgs[0].player2Increment));
      AccumulateIsWrappedSum(next, msgs[1..], player);
      var before := Score(state, player) + Increment(msgs[0], player);
      assert Score(next, player) == Wrap32(before);
      assert Score(state, player) + Total(msgs, player) == before + Total(msgs[1..], player);
      WrapThenAdd(before, Total(msgs[1..], player));
    }
  }

  /** Without overflow the totals are the exact sums. */
  lemma NoOverflowExactSum(state: GameState, msgs: seq<GoalScoredMessage>)
    requires Int32Scores(state)
    requires INT32_MIN <= state.player1Score + Total(msgs, One) <= INT32_MAX
    requires INT32_MIN <= state.player2Score + Total(msgs, Two) <= INT32_MAX
    ensures Accumulate(state, msgs)
      == GameState(state.player1Score + Total(msgs, One), state.player2Score + Total(msgs, Two))
  {
    var r := Accumulate(state, msgs);
    var sum1 := state.player1Score + Total(msgs, One);
    var sum2 := state.player2Score + Total(msgs, Two);
    AccumulateIsWrappedSum(state, msgs, One);
    assert r.player1Score == Wrap32(sum1) == sum1;
    AccumulateIsWrappedSum(state, msgs, Two);
    assert r.player2Score == Wrap32(sum2) == sum2;
  }

  /** The score event for a game state: the two totals. */
  function ScoreMessage(state: GameState): Outgoing
  {
    Outgoing(ScoreEvent, WriteScore(ScoreFields(state.player1Score, state.player2Score)))
  }

  /**
   One run of the system. A non-host does nothing. The host adds every message's increments,
   and sends one score event with the new totals exactly when there was a message.
   */
  function Update(isHost: bool, state: GameState, msgs: seq<GoalScoredMessage>): (r: (GameState, seq<Outgoing>))
    ensures !isHost ==> r == (state, [])
    ensures isHost ==> r.0 == Accumulate(state, msgs)
    ensures isHost ==> (r.1 != [] <==> msgs != [])
    ensures r.1 != [] ==> r.1 == [ScoreMessage(r.0)]
  {
    if !isHost then (state, [])
    else
      var totals := Accumulate(state, msgs);
      if msgs == [] then (totals, []) else (totals, [ScoreMessage(totals)])
  }

  /** The sent event decodes to the host's new totals, not to the increments. */
  lemma SentScoreIsTotals(state: GameState, msgs: seq<GoalScoredMessage>)
    requires msgs != []
    ensures var r := Update(true, state, msgs);
      && |r.1| == 1 && r.1[0].opCode == ScoreEvent
      && ReadScore(r.1[0].payload) == Some(ScoreFields(r.0.player1Score, r.0.player2Score))
  {
    var r := Update(true, state, msgs);
    ScoreRoundTrip(ScoreFields(r.0.player1Score, r.0.player2Score), []);
    assert r.1[0].payload + [] == r.1[0].payload;
  }
}

=== FILE: host_election.dfy ===
/**
 Host election. LINQ's `OrderBy(key).First()` and `OrderByDescending(key).First()` pick, by a
 stable sort, the first element whose key no other key sorts before. The string comparer the
 game uses is culture-sensitive, so the order on session ids is a parameter, assumed to be a
 strict total order wherever a property depends on it.
 */
module HostElection {
  import opened Types

  /** `before(a, b)`: key `a` sorts strictly before key `b`. */
  type Order = (SessionId, SessionId) -> bool

  ghost predicate StrictTotalOrder(before: Order)
  {
    && (forall a :: !before(a, a))
    && (forall a, b, c :: before(a, b) && before(b, c) ==> before(a, c))
    && (forall a, b :: a != b ==> before(a, b) || before(b, a))
  }

  /** The descending order of `less`. */
  function Reverse(less: Order): (r: Order)
    ensures forall a, b :: r(a, b) == less(b, a)
  {
    (a, b) => less(b, a)
  }

  lemma ReverseIsStrictTotal(less: Order)
    requires StrictTotalOrder(less)
    ensures StrictTotalOrder(Reverse(less))
  {
  }

  /**
   Index `j` is what a stable sort by `before` puts first: no key sorts before `keys[j]`, and
   every earlier element's key sorts strictly after it (otherwise that element would have come
   first).
   */
  ghost predicate IsSortFirst(keys: seq<SessionId>, before: Order, j: nat)
  {
    && j < |keys|
    && (forall k :: 0 <= k < |keys| ==> !before(keys[k], keys[j]))
    && (forall k :: 0 <= k < j ==> before(keys[j], keys[k]))
  }

  /** The scan behind `First()` of a stable sort: keep the first best key seen so far, and
      replace it only by a key that sorts strictly before it. */
  function SortFirstFrom(keys: seq<SessionId>, before: Order, best: nat, i: nat): (j: nat)
    requires best < i <= |keys|
    ensures j < |keys|
    decreases |keys| - i
  {
    if i == |keys| then best
    else SortFirstFrom(keys, before, if before(keys[i], keys[best]) then i else best, i + 1)
  }

  function SortFirst(keys: seq<SessionId>, before: Order): (j: nat)
    requires |keys| > 0
    ensures j < |keys|
  {
    SortFirstFrom(keys, before, 0, 1)
  }

  lemma {:induction false} SortFirstFromCorrect(keys: seq<SessionId>, before: Order, best: nat, i: nat)
    requires StrictTotalOrder(before) && best < i <= |keys|
    requires forall k :: 0 <= k < i ==> !before(keys[k], keys[best])
    requires forall k :: 0 <= k < best ==> before(keys[best], keys[k])
    ensures IsSortFirst(keys, before, SortFirstFrom(keys, before, best, i))
    decreases |keys| - i
  {
    if i < |keys| {
      if before(keys[i], keys[best]) {
        forall k | 0 <= k < i + 1
          ensures !before(keys[k], keys[i])
        {
          if k < i {
            assert !before(keys[k], keys[best]);
          }
        }
        forall k | 0 <= k < i
          ensures before(keys[i], keys[k])
        {
          if keys[k] != keys[best] {
            assert before(keys[best], keys[k]);
          }
        }
        SortFirstFromCorrect(keys, before, i, i + 1);
      } else {
        SortFirstFromCorrect(keys, before, best, i + 1);
      }
    }
  }

  /** The scan finds what the stable sort puts first. */
  lemma SortFirstCorrect(keys: seq<SessionId>, before: Order)
    requires StrictTotalOrder(before) && |keys| > 0
    ensures IsSortFirst(keys, before, SortFirst(keys, before))
  {
    SortFirstFromCorrect(keys, before, 0, 1);
  }

  /** Only one index can come first, so `IsSortFirst` determines the election. */
  lemma SortFirstUnique(keys: seq<SessionId>, before: Order, j1: nat, j2: nat)
    requires StrictTotalOrder(before)
    requires IsSortFirst(keys, before, j1) && IsSortFirst(keys, before, j2)
    ensures j1 == j2
  {
    assert !before(keys[j1], keys[j2]) && !before(keys[j2], keys[j1]);
    assert keys[j1] == keys[j2];
  }

  function SessionIds(users: seq<Presence>): (r: seq<SessionId>)
    ensures |r| == |users|
    ensures forall i :: 0 <= i < |users| ==> r[i] == users[i].sessionId
  {
    seq(|users|, i requires 0 <= i < |users| => users[i].sessionId)
  }

  /** `OrderByDescending(x => x.SessionId).First()`: the match-formation election. */
  function ElectGreatest(users: seq<Presence>, less: Order): (r: Presence)
    requires |users| > 0
    ensures r in users
  {
    users[SortFirst(SessionIds(users), Reverse(less))]
  }

  /** `OrderBy(x => x.SessionId).First()`: the election when the host leaves. */
  function ElectLeast(presences: seq<Presence>, less: Order): (r: Presence)
    requires |presences| > 0
    ensures r in presences
  {
    presences[SortFirst(SessionIds(presences), less)]
  }

  /** At match formation the host is the first user carrying the greatest session id. */
  lemma ElectGreatestIsGreatest(users: seq<Presence>, less: Order)
    requires StrictTotalOrder(less) && |users| > 0
    ensures var h := ElectGreatest(users, less);
      && (forall u :: u in users ==> u.sessionId == h.sessionId || less(u.sessionId, h.sessionId))
      && (exists j :: 0 <= j < |users| && users[j] == h && forall k :: 0 <= k < j ==> less(users[k].sessionId, h.sessionId))
  {
    ReverseIsStrictTotal(less);
    var keys := SessionIds(users);
    var j := SortFirst(keys, Reverse(less));
    SortFirstCorrect(keys, Reverse(less));
    forall u | u in users
      ensures u.sessionId == users[j].sessionId || less(u.sessionId, users[j].sessionId)
    {
      var k :| 0 <= k < |users| && users[k] == u;
      assert !Reverse(less)(keys[k], keys[j]);
    }
    assert forall k :: 0 <= k < j ==> Reverse(less)(keys[j], keys[k]);
  }

  /** When the host leaves, the new host is the first presence carrying the least session id. */
  lemma ElectLeastIsLeast(presences: seq<Presence>, less: Order)
    requires StrictTotalOrder(less) && |presences| > 0
    ensures var h := ElectLeast(presences, less);
      && (forall u :: u in presences ==> u.sessionId == h.sessionId || less(h.sessionId, u.sessionId))
      && (exists j :: 0 <= j < |presences| && presences[j] == h && forall k :: 0 <= k < j ==> less(h.sessionId, presences[k].sessionId))
  {
    var keys := SessionIds(presences);
    var j := SortFirst(keys, less);
    SortFirstCorrect(keys, less);
    forall u | u in presences
      ensures u.sessionId == presences[j].sessionId || less(presences[j].sessionId, u.sessionId)
    {
      var k :| 0 <= k < |presences| && presences[k] == u;
      assert !less(keys[k], keys[j]);
    }
    assert forall k :: 0 <= k < j ==> less(keys[j], keys[k]);
  }
}

=== FILE: network_game_manager.dfy ===
/**
 `NetworkGameManager`: the session side of a match. It keeps the host and local presences, the
 current match and the session-to-player map; it turns the transport's matchmaker, presence
 and state events into spawn, remove and received-state events for the game.

 Handlers are pure functions from the manager state and the transport event to an `Outcome`:
 the new state and the events raised, in order, or the exception the source would throw (a
 null dereference or `First()` of an empty sequence). The transport calls themselves
 (joining, leaving, sending) are not modelled: the joined match is an input.
 */
module NetworkGameManager {
  import opened Types
  import opened Packets
  import opened HostElection

  /** `LocalPlayer`, or a `NetworkPlayer` with its `RemotePlayerNetworkData`. */
  datatype Player = LocalPlayer | NetworkPlayer(matchId: string, user: Presence)

  /** `IMatch`: its id and the presences it listed when it was joined. */
  datatype Match = Match(id: string, presences: seq<Presence>)

  datatype Manager = Manager(
    host: Option<Presence>,
    local: Option<Presence>,
    currentMatch: Option<Match>,
    players: map<SessionId, Player>)

  const INITIAL_MANAGER: Manager := Manager(None, None, None, map[])

  /** The events the manager raises for the game. */
  datatype Event =
    | SpawnedLocalPlayer
    | SpawnedRemotePlayer(sessionId: SessionId)
    | ReceivedRemotePaddleState(paddle: PaddleFields, sessionId: SessionId)
    | ReceivedRemoteBallState(ball: BallFields)
    | ReceivedRemoteScore(score: ScoreFields)
    | RemovedPlayer(sessionId: SessionId)

  /** The exceptions the handlers can throw. */
  datatype Fault = NullReference | EmptySequence

  datatype Outcome = Done(manager: Manager, events: seq<Event>) | Threw(fault: Fault)

  /** `IsHost`: the session ids compared, with "host" and "user" standing in for a missing
      host or local presence. */
  function HostKey(m: Manager): SessionId
  {
    if m.host.Some? then m.host.value.sessionId else "host"
  }

  function LocalKey(m: Manager): SessionId
  {
    if m.local.Some? then m.local.value.sessionId else "user"
  }

  function IsHost(m: Manager): (r: bool)
    ensures m.host.Some? && m.local.Some? ==> (r <==> m.host.value.sessionId == m.local.value.sessionId)
    ensures m.host.None? && m.local.None? ==> !r
  {
    HostKey(m) == LocalKey(m)
  }

  /** Session ids never equal to the stand-ins: then `IsHost` holds exactly when both
      presences are known and carry the same session id. */
  lemma IsHostWithRealSessions(m: Manager)
    requires m.host.Some? ==> m.host.value.sessionId != "user"
    requires m.local.Some? ==> m.local.value.sessionId != "host"
    ensures IsHost(m) <==> m.host.Some? && m.local.Some? && m.host.value.sessionId == m.local.value.sessionId
  {
  }

  function SessionSet(users: seq<Presence>): (r: set<SessionId>)
    ensures forall i :: 0 <= i < |users| ==> users[i].sessionId in r
  {
    set i | 0 <= i < |users| :: users[i].sessionId
  }

  /**
   `SpawnPlayer`: an already-mapped session is left alone; otherwise the session is mapped to a
   local player if it is the local session and to a network player of the match otherwise, and
   exactly one matching spawn event is raised. Comparing with the local session dereferences
   the local presence, which is missing after `QuitMatch`.
   */
  function SpawnPlayer(m: Manager, matchId: string, user: Presence): (r: Outcome)
    ensures user.sessionId in m.players ==> r == Done(m, [])
    ensures user.sessionId !in m.players && m.local.None? ==> r == Threw(NullReference)
    ensures user.sessionId !in m.players && m.local.Some? ==>
      var isLocal := user.sessionId == m.local.value.sessionId;
      && r.Done?
      && r.manager == m.(players := m.players[user.sessionId := if isLocal then LocalPlayer else NetworkPlayer(matchId, user)])
      && r.events == [if isLocal then SpawnedLocalPlayer else SpawnedRemotePlayer(user.sessionId)]
    ensures r.Threw? <==> m.local.None? && user.sessionId !in m.players
    ensures r.Done? ==> r.manager.players.Keys == m.players.Keys + {user.sessionId}
    ensures r.Done? ==> r.manager == m.(players := r.manager.players)
    ensures r.Done? ==> forall s :: s in m.players ==> r.manager.players[s] == m.players[s]
    ensures r.Done? ==> |r.events| <= 1
    ensures r.Done? ==> forall e :: e in r.events ==> SpawnEventFor(e, m, [user])
  {
    assert [user][0].sessionId in SessionSet([user]);
    if user.sessionId in m.players then Done(m, [])
    else if m.local.None? then Threw(NullReference)
    else if user.sessionId == m.local.value.sessionId then
      Done(m.(players := m.players[user.sessionId := LocalPlayer]), [SpawnedLocalPlayer])
    else
      Done(m.(players := m.players[user.sessionId := NetworkPlayer(matchId, user)]), [SpawnedRemotePlayer(user.sessionId)])
  }

  /** `RemovePlayer`: an unknown session is a no-op; a known one is unmapped and one removal
      event is raised. */
  function RemovePlayer(m: Manager, sessionId: SessionId): (r: Outcome)
    ensures r.Done?
    ensures sessionId !in m.players ==> r == Done(m, [])
    ensures sessionId in m.players ==>
      r == Done(m.(players := m.players - {sessionId}), [RemovedPlayer(sessionId)])
  {
    if sessionId !in m.players then Done(m, [])
    else Done(m.(players := m.players - {sessionId}), [RemovedPlayer(sessionId)])
  }

  /** Spawning a new session and then removing it gives back the manager it started from. */
  lemma SpawnThenRemove(m: Manager, matchId: string, user: Presence)
    requires user.sessionId !in m.players && m.local.Some?
    ensures RemovePlayer(SpawnPlayer(m, matchId, user).manager, user.sessionId).manager == m
  {
    var m1 := SpawnPlayer(m, matchId, user).manager;
    assert m1.players - {user.sessionId} == m.players;
  }

  /** Spawning a session twice is spawning it once. */
  lemma SpawnIdempotent(m: Manager, matchId: string, user: Presence)
    requires m.local.Some?
    ensures var r := SpawnPlayer(m, matchId, user);
      SpawnPlayer(r.manager, matchId, user) == Done(r.manager, [])
  {
  }

  /** The events a spawn loop can raise for users that were not mapped before it. */
  predicate SpawnEventFor(e: Event, m: Manager, users: seq<Presence>)
  {
    && (e.SpawnedLocalPlayer? || e.SpawnedRemotePlayer?)
    && (e.SpawnedRemotePlayer? ==> e.sessionId in SessionSet(users) && e.sessionId !in m.players)
  }

  /**
   A `foreach` of `SpawnPlayer` over users. It fails exactly when the local presence is missing
   and some user is new; otherwise the users' sessions are added to the map, mapped sessions
   keep their players, nothing else changes and at most one event per user is raised.
   */
  function SpawnAll(m: Manager, matchId: string, users: seq<Presence>): (r: Outcome)
    ensures r.Threw? <==> m.local.None? && !(SessionSet(users) <= m.players.Keys)
    ensures r.Threw? ==> r.fault == NullReference
    ensures r.Done? ==> r.manager.players.Keys == m.players.Keys + SessionSet(users)
    ensures r.Done? ==> r.manager == m.(players := r.manager.players)
    ensures r.Done? ==> forall s :: s in m.players ==> r.manager.players[s] == m.players[s]
    ensures r.Done? ==> |r.events| <= |users|
    ensures r.Done? ==> forall i :: 0 <= i < |r.events| ==> SpawnEventFor(r.events[i], m, users)
    ensures r.Done? ==> |r.events| == |SessionSet(users) - m.players.Keys|
    ensures r.Done? ==> forall s :: s in SessionSet(users) && s !in m.players ==> NewPlayer(m, r, matchId, s)
    decreases |users|
  {
    if users == [] then Done(m, [])
    else
      var first := SpawnPlayer(m, matchId, users[0]);
      SessionSetCons(users);
      if first.Threw? then first
      else
        var rest := SpawnAll(first.manager, matchId, users[1..]);
        if rest.Threw? then rest
        else
          var events := first.events + rest.events;
          SpawnAllStep(m, matchId, users, first, rest);
          Done(rest.manager, events)
  }

  /**
   What a spawn loop did for a session that was not mapped before it: the session is mapped to
   the local player exactly when it is the local session, and otherwise to a network player of
   the match carrying that session; and its spawn event was raised.
   */
  predicate NewPlayer(m: Manager, r: Outcome, matchId: string, s: SessionId)
  {
    && r.Done?
    && m.local.Some?
    && s in r.manager.players
    && (r.manager.players[s].LocalPlayer? <==> s == m.local.value.sessionId)
    && (r.manager.players[s].NetworkPlayer? ==>
          r.manager.players[s].matchId == matchId && r.manager.players[s].user.sessionId == s)
    && (if s == m.local.value.sessionId then SpawnedLocalPlayer in r.events
        else SpawnedRemotePlayer(s) in r.events)
  }

  /** One step of the spawn loop: the first user's spawn followed by the rest's spawns
      accounts for every new session of the whole list, one event each. */
  lemma SpawnAllStep(m: Manager, matchId: string, users: seq<Presence>, first: Outcome, rest: Outcome)
    requires users != [] && first == SpawnPlayer(m, matchId, users[0]) && first.Done? && rest.Done?
    requires rest.manager.players.Keys == first.manager.players.Keys + SessionSet(users[1..])
    requires forall s :: s in first.manager.players ==> rest.manager.players[s] == first.manager.players[s]
    requires |rest.events| == |SessionSet(users[1..]) - first.manager.players.Keys|
    requires forall s :: s in SessionSet(users[1..]) && s !in first.manager.players ==> NewPlayer(first.manager, rest, matchId, s)
    requires forall i :: 0 <= i < |rest.events| ==> SpawnEventFor(rest.events[i], first.manager, users[1..])
    requires rest.manager == first.manager.(players := rest.manager.players)
    requires |rest.events| <= |users| - 1
    ensures rest.manager.players.Keys == m.players.Keys + SessionSet(users)
    ensures rest.manager == m.(players := rest.manager.players)
    ensures forall s :: s in m.players ==> rest.manager.players[s] == m.players[s]
    ensures |first.events + rest.events| <= |users|
    ensures |first.events + rest.events| == |SessionSet(users) - m.players.Keys|
    ensures forall s :: s in SessionSet(users) && s !in m.players ==> NewPlayer(m, Done(rest.manager, first.events + rest.events), matchId, s)
    ensures forall i :: 0 <= i < |first.events + rest.events| ==> SpawnEventFor((first.events + rest.events)[i], m, users)
  {
    SpawnAllFrameStep(m, matchId, users, first, rest);
    SpawnAllCountStep(m, matchId, users, first, |rest.events|);
    SpawnAllEventsStep(m, matchId, users, first, rest.events);
    SpawnAllNewStep(m, matchId, users, first, rest);
  }

  /** After a step the whole list's sessions are mapped and the older players are kept. */
  lemma SpawnAllFrameStep(m: Manager, matchId: string, users: seq<Presence>, first: Outcome, rest: Outcome)
    requires users != [] && first == SpawnPlayer(m, matchId, users[0]) && first.Done? && rest.Done?
    requires rest.manager.players.Keys == first.manager.players.Keys + SessionSet(users[1..])
    requires forall s :: s in first.manager.players ==> rest.manager.players[s] == first.manager.players[s]
    requires rest.manager == first.manager.(players := rest.manager.players)
    ensures rest.manager.players.Keys == m.players.Keys + SessionSet(users)
    ensures rest.manager == m.(players := rest.manager.players)
    ensures forall s :: s in m.players ==> rest.manager.players[s] == m.players[s]
  {
    SessionSetCons(users);
  }

  /** A step raises one event per session new to the whole list. */
  lemma SpawnAllCountStep(m: Manager, matchId: string, users: seq<Presence>, first: Outcome, restCount: nat)
    requires users != [] && first == SpawnPlayer(m, matchId, users[0]) && first.Done?
    requires restCount == |SessionSet(users[1..]) - first.manager.players.Keys|
    requires restCount <= |users| - 1
    ensures |first.events| + restCount <= |users|
    ensures |first.events| + restCount == |SessionSet(users) - m.players.Keys|
  {
    NewSessionsCons(users, m.players.Keys);
  }

  /** The spawn events of a step are spawn events for the whole list. */
  lemma SpawnAllEventsStep(m: Manager, matchId: string, users: seq<Presence>, first: Outcome, restEvents: seq<Event>)
    requires users != [] && first == SpawnPlayer(m, matchId, users[0]) && first.Done?
    requires forall i :: 0 <= i < |restEvents| ==> SpawnEventFor(restEvents[i], first.manager, users[1..])
    ensures forall i :: 0 <= i < |first.events + restEvents| ==> SpawnEventFor((first.events + restEvents)[i], m, users)
  {
    SessionSetCons(users);
    var events := first.events + restEvents;
    forall i | 0 <= i < |events|
      ensures SpawnEventFor(events[i], m, users)
    {
      if i < |first.events| {
        assert events[i] in first.events;
      } else {
        assert events[i] == restEvents[i - |first.events|];
      }
    }
  }

  /** Every session new to the whole list got its player and its event in a step. */
  lemma SpawnAllNewStep(m: Manager, matchId: string, users: seq<Presence>, first: Outcome, rest: Outcome)
    requires users != [] && first == SpawnPlayer(m, matchId, users[0]) && first.Done? && rest.Done?
    requires rest.manager.players.Keys == first.manager.players.Keys + SessionSet(users[1..])
    requires forall s :: s in first.manager.players ==> rest.manager.players[s] == first.manager.players[s]
    requires forall s :: s in SessionSet(users[1..]) && s !in first.manager.players ==> NewPlayer(first.manager, rest, matchId, s)
    requires rest.manager == first.manager.(players := rest.manager.players)
    ensures forall s :: s in SessionSet(users) && s !in m.players ==> NewPlayer(m, Done(rest.manager, first.events + rest.events), matchId, s)
  {
    SessionSetCons(users);
    var events := first.events + rest.events;
    forall s | s in SessionSet(users) && s !in m.players
      ensures NewPlayer(m, Done(rest.manager, events), matchId, s)
    {
      if s == users[0].sessionId {
        assert first.events[0] in events;
      } else {
        assert NewPlayer(first.manager, rest, matchId, s);
        assert forall e :: e in rest.events ==> e in events;
      }
    }
  }

  /** The new sessions of a user list: the first user's, if new, and the rest's beyond it. */
  lemma NewSessionsCons(users: seq<Presence>, known: set<SessionId>)
    requires users != []
    ensures |SessionSet(users) - known| ==
      (if users[0].sessionId in known then 0 else 1) + |SessionSet(users[1..]) - (known + {users[0].sessionId})|
  {
    SessionSetCons(users);
    var u := users[0].sessionId;
    var later := SessionSet(users[1..]) - (known + {u});
    if u in known {
      assert SessionSet(users) - known == later;
    } else {
      assert SessionSet(users) - known == {u} + later;
      assert u !in later;
    }
  }

  lemma SessionSetCons(users: seq<Presence>)
    requires users != []
    ensures SessionSet(users) == {users[0].sessionId} + SessionSet(users[1..])
  {
    assert forall i :: 1 <= i < |users| ==> users[i] == users[1..][i - 1];
  }

  /** A `foreach` of `RemovePlayer` over session ids: those sessions are unmapped, the rest
      keep their players, and one removal event is raised per session that was mapped. */
  function RemoveAll(m: Manager, sessionIds: seq<SessionId>): (r: Outcome)
    ensures r.Done?
    ensures r.manager.players.Keys == m.players.Keys - IdSet(sessionIds)
    ensures r.manager == m.(players := r.manager.players)
    ensures forall s :: s in r.manager.players ==> r.manager.players[s] == m.players[s]
    ensures |r.events| <= |sessionIds|
    ensures forall i :: 0 <= i < |r.events| ==>
      r.events[i].RemovedPlayer? && r.events[i].sessionId in m.players && r.events[i].sessionId in sessionIds
    ensures |r.events| == |IdSet(sessionIds) * m.players.Keys|
    ensures forall s :: s in IdSet(sessionIds) && s in m.players ==> RemovedPlayer(s) in r.events
    decreases |sessionIds|
  {
    if sessionIds == [] then Done(m, [])
    else
      var first := RemovePlayer(m, sessionIds[0]);
      var rest := RemoveAll(first.manager, sessionIds[1..]);
      RemoveAllStep(m, sessionIds, first, rest);
      Done(rest.manager, first.events + rest.events)
  }

  /** One step of the removal loop: the first id's removal followed by the rest's removals
      unmaps every session of the whole list and raises one event per mapped one. */
  lemma RemoveAllStep(m: Manager, sessionIds: seq<SessionId>, first: Outcome, rest: Outcome)
    requires sessionIds != [] && first == RemovePlayer(m, sessionIds[0]) && rest.Done?
    requires rest.manager.players.Keys == first.manager.players.Keys - IdSet(sessionIds[1..])
    requires rest.manager == first.manager.(players := rest.manager.players)
    requires forall s :: s in rest.manager.players ==> rest.manager.players[s] == first.manager.players[s]
    requires |rest.events| <= |sessionIds| - 1
    requires |rest.events| == |IdSet(sessionIds[1..]) * first.manager.players.Keys|
    requires forall s :: s in IdSet(sessionIds[1..]) && s in first.manager.players ==> RemovedPlayer(s) in rest.events
    requires forall i :: 0 <= i < |rest.events| ==>
      rest.events[i].RemovedPlayer? && rest.events[i].sessionId in first.manager.players && rest.events[i].sessionId in sessionIds[1..]
    ensures rest.manager.players.Keys == m.players.Keys - IdSet(sessionIds)
    ensures rest.manager == m.(players := rest.manager.players)
    ensures forall s :: s in rest.manager.players ==> rest.manager.players[s] == m.players[s]
    ensures |first.events + rest.events| <= |sessionIds|
    ensures |first.events + rest.events| == |IdSet(sessionIds) * m.players.Keys|
    ensures forall s :: s in IdSet(sessionIds) && s in m.players ==> RemovedPlayer(s) in first.events + rest.events
    ensures forall i :: 0 <= i < |first.events + rest.events| ==>
      var e := (first.events + rest.events)[i];
      e.RemovedPlayer? && e.sessionId in m.players && e.sessionId in sessionIds
  {
    RemoveAllFrameStep(m, sessionIds, first, rest);
    RemoveAllCountStep(m, sessionIds, first, |rest.events|);
    RemoveAllEventsStep(m, sessionIds, first, rest.events);
  }

  /** After a step the whole list's sessions are unmapped and the others keep their players. */
  lemma RemoveAllFrameStep(m: Manager, sessionIds: seq<SessionId>, first: Outcome, rest: Outcome)
    requires sessionIds != [] && first == RemovePlayer(m, sessionIds[0]) && rest.Done?
    requires rest.manager.players.Keys == first.manager.players.Keys - IdSet(sessionIds[1..])
    requires rest.manager == first.manager.(players := rest.manager.players)
    requires forall s :: s in rest.manager.players ==> rest.manager.players[s] == first.manager.players[s]
    ensures rest.manager.players.Keys == m.players.Keys - IdSet(sessionIds)
    ensures rest.manager == m.(players := rest.manager.players)
    ensures forall s :: s in rest.manager.players ==> rest.manager.players[s] == m.players[s]
  {
    IdSetCons(sessionIds);
  }

  /** A step raises one event per mapped session of the whole list. */
  lemma RemoveAllCountStep(m: Manager, sessionIds: seq<SessionId>, first: Outcome, restCount: nat)
    requires sessionIds != [] && first == RemovePlayer(m, sessionIds[0])
    requires restCount <= |sessionIds| - 1
    requires restCount == |IdSet(sessionIds[1..]) * first.manager.players.Keys|
    ensures |first.events| + restCount <= |sessionIds|
    ensures |first.events| + restCount == |IdSet(sessionIds) * m.players.Keys|
  {
    MappedIdsCons(sessionIds, m.players.Keys);
    assert first.manager.players.Keys == m.players.Keys - {sessionIds[0]};
  }

  /** The removal events of a step name mapped sessions of the whole list, and every mapped
      session of the list has one. */
  lemma RemoveAllEventsStep(m: Manager, sessionIds: seq<SessionId>, first: Outcome, restEvents: seq<Event>)
    requires sessionIds != [] && first == RemovePlayer(m, sessionIds[0])
    requires forall s :: s in IdSet(sessionIds[1..]) && s in first.manager.players ==> RemovedPlayer(s) in restEvents
    requires forall i :: 0 <= i < |restEvents| ==>
      restEvents[i].RemovedPlayer? && restEvents[i].sessionId in first.manager.players && restEvents[i].sessionId in sessionIds[1..]
    ensures forall s :: s in IdSet(sessionIds) && s in m.players ==> RemovedPlayer(s) in first.events + restEvents
    ensures forall i :: 0 <= i < |first.events + restEvents| ==>
      var e := (first.events + restEvents)[i];
      e.RemovedPlayer? && e.sessionId in m.players && e.sessionId in sessionIds
  {
    IdSetCons(sessionIds);
    var events := first.events + restEvents;
    assert forall e :: e in restEvents ==> e in events;
    assert forall e :: e in first.events ==> e in events;
    forall i | 0 <= i < |events|
      ensures events[i].RemovedPlayer? && events[i].sessionId in m.players && events[i].sessionId in sessionIds
    {
      if i >= |first.events| {
        var k := i - |first.events|;
        assert events[i] == restEvents[k];
        assert restEvents[k].sessionId in sessionIds[1..];
      }
    }
  }

  /** The session ids of a list, as a set. */
  function IdSet(sessionIds: seq<SessionId>): set<SessionId>
  {
    set i | 0 <= i < |sessionIds| :: sessionIds[i]
  }

  lemma IdSetCons(sessionIds: seq<SessionId>)
    requires sessionIds != []
    ensures IdSet(sessionIds) == {sessionIds[0]} + IdSet(sessionIds[1..])
  {
    assert forall i :: 1 <= i < |sessionIds| ==> sessionIds[i] == sessionIds[1..][i - 1];
  }

  /** The mapped sessions of an id list: the first, if mapped, and the rest's among the
      sessions still mapped after it. */
  lemma MappedIdsCons(sessionIds: seq<SessionId>, mapped: set<SessionId>)
    requires sessionIds != []
    ensures |IdSet(sessionIds) * mapped| ==
      (if sessionIds[0] in mapped then 1 else 0) + |IdSet(sessionIds[1..]) * (mapped - {sessionIds[0]})|
  {
    IdSetCons(sessionIds);
    var u := sessionIds[0];
    var later := IdSet(sessionIds[1..]) * (mapped - {u});
    if u in mapped {
      assert IdSet(sessionIds) * mapped == {u} + later;
      assert u !in later;
    } else {
      assert IdSet(sessionIds) * mapped == later;
    }
  }

  /**
   `OnReceivedMatchmakerMatched` up to its `await`: the host is the matched user with the
   greatest session id and the local presence is the matched self; nothing else changes yet.
   An empty user list makes `First()` throw.
   */
  function MatchedBeforeJoin(m: Manager, users: seq<Presence>, self: Presence, less: Order): (r: Outcome)
    ensures r.Threw? <==> users == []
    ensures r.Done? ==>
      && r.manager.host == Some(ElectGreatest(users, less))
      && r.manager.local == Some(self)
      && r.manager.currentMatch == m.currentMatch
      && r.manager.players == m.players
      && r.events == []
  {
    if users == [] then Threw(EmptySequence)
    else Done(m.(host := Some(ElectGreatest(users, less)), local := Some(self)), [])
  }

  /**
   `OnReceivedMatchmakerMatched` after its `await`: every presence of the joined match is
   spawned and the joined match becomes the current one. Players already mapped are kept; each
   new session is mapped to the local player exactly when it is the local session, and raises
   its spawn event, one per new session. Should the local presence have been cleared since the
   first half, spawning a new session dereferences it and throws.
   */
  function MatchJoined(m: Manager, joined: Match): (r: Outcome)
    ensures r.Threw? <==> m.local.None? && !(SessionSet(joined.presences) <= m.players.Keys)
    ensures r.Threw? ==> r.fault == NullReference
    ensures r.Done? ==>
      && r.manager.host == m.host && r.manager.local == m.local
      && r.manager.currentMatch == Some(joined)
      && r.manager.players.Keys == m.players.Keys + SessionSet(joined.presences)
    ensures r.Done? ==> forall s :: s in m.players ==> r.manager.players[s] == m.players[s]
    ensures r.Done? ==> |r.events| == |SessionSet(joined.presences) - m.players.Keys|
    ensures r.Done? ==> forall s :: s in SessionSet(joined.presences) && s !in m.players ==>
      && m.local.Some?
      && (r.manager.players[s].LocalPlayer? <==> s == m.local.value.sessionId)
      && (r.manager.players[s].NetworkPlayer? ==>
            r.manager.players[s].matchId == joined.id && r.manager.players[s].user.sessionId == s)
      && (if s == m.local.value.sessionId then SpawnedLocalPlayer in r.events else SpawnedRemotePlayer(s) in r.events)
  {
    var spawned := SpawnAll(m, joined.id, joined.presences);
    if spawned.Threw? then spawned
    else Done(spawned.manager.(currentMatch := Some(joined)), spawned.events)
  }

  /**
   `OnReceivedMatchmakerMatched`, both halves run back to back: the host is the matched user
   with the greatest session id, the local presence is the matched self, every presence of the
   joined match is spawned and the joined match becomes the current one. Players already mapped
   are kept; each new session is mapped to the local player exactly when it is the matched
   self's, and raises its spawn event, one per new session. An empty user list makes `First()`
   throw.
   */
  function OnReceivedMatchmakerMatched(m: Manager, users: seq<Presence>, self: Presence, joined: Match, less: Order): (r: Outcome)
    ensures r.Threw? <==> users == []
    ensures r.Done? ==>
      && r.manager.host == Some(ElectGreatest(users, less))
      && r.manager.local == Some(self)
      && r.manager.currentMatch == Some(joined)
      && r.manager.players.Keys == m.players.Keys + SessionSet(joined.presences)
    ensures r.Done? ==> forall s :: s in m.players ==> r.manager.players[s] == m.players[s]
    ensures r.Done? ==> |r.events| == |SessionSet(joined.presences) - m.players.Keys|
    ensures r.Done? ==> forall s :: s in SessionSet(joined.presences) && s !in m.players ==>
      && (r.manager.players[s].LocalPlayer? <==> s == self.sessionId)
      && (r.manager.players[s].NetworkPlayer? ==>
            r.manager.players[s].matchId == joined.id && r.manager.players[s].user.sessionId == s)
      && (if s == self.sessionId then SpawnedLocalPlayer in r.events else SpawnedRemotePlayer(s) in r.events)
  {
    var before := MatchedBeforeJoin(m, users, self, less);
    if before.Threw? then before
    else MatchJoined(before.manager, joined)
  }

  /** The transport's presence event: who joined and who left. */
  datatype PresenceEvent = PresenceEvent(matchId: string, joins: seq<Presence>, leaves: seq<Presence>)

  /** Some leaver has the host's user id (`Leaves.Any(x => x.UserId == host.UserId)`). */
  predicate HostLeaves(host: Presence, leaves: seq<Presence>)
  {
    exists i :: 0 <= i < |leaves| && leaves[i].userId == host.userId
  }

  /** The failures of the presence handler before any player is spawned: reading the host's
      user id with no host while someone leaves, and, when the host leaves, no current match
      or an empty presence list for `First()`. */
  function PresenceFault(m: Manager, leaves: seq<Presence>): Option<Fault>
  {
    if leaves != [] && m.host.None? then Some(NullReference)
    else if m.host.Some? && HostLeaves(m.host.value, leaves) && m.currentMatch.None? then Some(NullReference)
    else if m.host.Some? && HostLeaves(m.host.value, leaves) && m.currentMatch.value.presences == [] then Some(EmptySequence)
    else None
  }

  /** The joins and leaves handled once the host is settled: spawn every joiner, then remove
      every leaver. */
  function JoinThenLeave(m: Manager, ev: PresenceEvent): (r: Outcome)
    ensures r.Threw? <==> m.local.None? && !(SessionSet(ev.joins) <= m.players.Keys)
    ensures r.Done? ==> r.manager.players.Keys == (m.players.Keys + SessionSet(ev.joins)) - SessionSet(ev.leaves)
    ensures r.Done? ==> r.manager == m.(players := r.manager.players)
    ensures r.Done? ==> PresenceHandled(m, ev, r)
  {
    var spawned := SpawnAll(m, ev.matchId, ev.joins);
    if spawned.Threw? then spawned
    else
      var removed := RemoveAll(spawned.manager, SessionIds(ev.leaves));
      var events := spawned.events + removed.events;
      LeaverIds(ev.leaves);
      StayersKeptStep(m, ev, spawned.manager, removed.manager);
      LeaversRemovedStep(m, ev, spawned.manager, spawned.events, removed.events);
      JoinersSpawnedStep(m, ev, spawned, removed.manager, events);
      Done(removed.manager, events)
  }

  /**
   What handling the joins and leaves of a presence event leaves behind, from the players `m`
   had: a player that does not leave keeps its entry; a leaver that was mapped, or that joined
   in the same event, raises its removal event; a new joiner raises its spawn event and, unless
   it also leaves, is mapped to the local player exactly when it is the local session. One
   event is raised per new joiner and per mapped leaver, and no other.
   */
  predicate PresenceHandled(m: Manager, ev: PresenceEvent, r: Outcome)
  {
    && r.Done?
    && StayersKept(m, ev, r.manager)
    && LeaversRemoved(m, ev, r.events)
    && JoinersSpawned(m, ev, r)
    && |r.events| == |SessionSet(ev.joins) - m.players.Keys|
                     + |SessionSet(ev.leaves) * (m.players.Keys + SessionSet(ev.joins))|
  }

  /** Every player that does not leave keeps its entry. */
  predicate StayersKept(m: Manager, ev: PresenceEvent, after: Manager)
  {
    forall s :: s in m.players && s !in SessionSet(ev.leaves) ==>
      s in after.players && after.players[s] == m.players[s]
  }

  /** Every leaver that was mapped, or joined in the same event, raises its removal event. */
  predicate LeaversRemoved(m: Manager, ev: PresenceEvent, events: seq<Event>)
  {
    forall s :: s in SessionSet(ev.leaves) && s in m.players.Keys + SessionSet(ev.joins) ==>
      RemovedPlayer(s) in events
  }

  /** Every new joiner raises its spawn event and, unless it also leaves, is mapped to the
      local player exactly when it is the local session. */
  predicate JoinersSpawned(m: Manager, ev: PresenceEvent, r: Outcome)
    requires r.Done?
  {
    forall s :: s in SessionSet(ev.joins) && s !in m.players ==>
      && m.local.Some?
      && (if s == m.local.value.sessionId then SpawnedLocalPlayer in r.events
          else SpawnedRemotePlayer(s) in r.events)
      && (s !in SessionSet(ev.leaves) ==>
            s in r.manager.players && (r.manager.players[s].LocalPlayer? <==> s == m.local.value.sessionId))
  }

  /** The removal loop's id set is the leavers' session set. */
  lemma LeaverIds(leaves: seq<Presence>)
    ensures IdSet(SessionIds(leaves)) == SessionSet(leaves)
  {
  }

  /** Spawning keeps the old players and removing keeps the others, so a player that does
      not leave keeps its entry. */
  lemma StayersKeptStep(m: Manager, ev: PresenceEvent, spawned: Manager, removed: Manager)
    requires spawned.players.Keys == m.players.Keys + SessionSet(ev.joins)
    requires forall s :: s in m.players ==> spawned.players[s] == m.players[s]
    requires removed.players.Keys == spawned.players.Keys - SessionSet(ev.leaves)
    requires forall s :: s in removed.players ==> removed.players[s] == spawned.players[s]
    ensures StayersKept(m, ev, removed)
  {
  }

  /** The removal loop raises the removal of every mapped leaver, joiners included. */
  lemma LeaversRemovedStep(m: Manager, ev: PresenceEvent, spawned: Manager, spawnEvents: seq<Event>, removeEvents: seq<Event>)
    requires spawned.players.Keys == m.players.Keys + SessionSet(ev.joins)
    requires forall s :: s in SessionSet(ev.leaves) && s in spawned.players ==> RemovedPlayer(s) in removeEvents
    ensures LeaversRemoved(m, ev, spawnEvents + removeEvents)
  {
    assert forall e :: e in removeEvents ==> e in spawnEvents + removeEvents;
  }

  /** The spawn loop's new entries and events survive the removal loop, except the entries
      of those who also leave. */
  lemma JoinersSpawnedStep(m: Manager, ev: PresenceEvent, spawned: Outcome, removed: Manager, events: seq<Event>)
    requires spawned.Done?
    requires forall s :: s in SessionSet(ev.joins) && s !in m.players ==> NewPlayer(m, spawned, ev.matchId, s)
    requires removed.players.Keys == spawned.manager.players.Keys - SessionSet(ev.leaves)
    requires forall s :: s in removed.players ==> removed.players[s] == spawned.manager.players[s]
    requires forall e :: e in spawned.events ==> e in events
    ensures JoinersSpawned(m, ev, Done(removed, events))
  {
    forall s | s in SessionSet(ev.joins) && s !in m.players
      ensures && m.local.Some?
              && (if s == m.local.value.sessionId then SpawnedLocalPlayer in events
                  else SpawnedRemotePlayer(s) in events)
              && (s !in SessionSet(ev.leaves) ==>
                    s in removed.players && (removed.players[s].LocalPlayer? <==> s == m.local.value.sessionId))
    {
      assert NewPlayer(m, spawned, ev.matchId, s);
    }
  }

  /**
   `OnReceivedMatchPresence`: if the host leaves, the new host is the least session id among
   the presences the current match listed when it was joined, a list that still holds the
   leaver; then joiners are spawned and leavers removed.
   */
  function OnReceivedMatchPresence(m: Manager, ev: PresenceEvent, less: Order): (r: Outcome)
    ensures PresenceFault(m, ev.leaves).Some? ==> r == Threw(PresenceFault(m, ev.leaves).value)
    ensures PresenceFault(m, ev.leaves).None? && m.local.Some? ==> r.Done?
    ensures r.Done? ==>
      && r.manager.local == m.local
      && r.manager.currentMatch == m.currentMatch
      && r.manager.players.Keys == (m.players.Keys + SessionSet(ev.joins)) - SessionSet(ev.leaves)
    ensures r.Done? && m.host.Some? && HostLeaves(m.host.value, ev.leaves) ==>
      r.manager.host == Some(ElectLeast(m.currentMatch.value.presences, less))
    ensures r.Done? && !(m.host.Some? && HostLeaves(m.host.value, ev.leaves)) ==> r.manager.host == m.host
    ensures r.Done? ==> PresenceHandled(m, ev, r)
  {
    match PresenceFault(m, ev.leaves)
    case Some(f) => Threw(f)
    case None =>
      var reelected :=
        if m.host.Some? && HostLeaves(m.host.value, ev.leaves)
        then m.(host := Some(ElectLeast(m.currentMatch.value.presences, less)))
        else m;
      JoinThenLeave(reelected, ev)
  }

  /** The election over the stale presence list picks a leaving user when that user carries
      the least session id listed. */
  lemma StaleListReelectsLeaver(presences: seq<Presence>, leaver: Presence, less: Order)
    requires StrictTotalOrder(less)
    requires presences != [] && presences[0] == leaver
    requires forall p :: p in presences && p != leaver ==> less(leaver.sessionId, p.sessionId)
    ensures HostLeaves(leaver, [leaver])
    ensures ElectLeast(presences, less) == leaver
  {
    assert [leaver][0].userId == leaver.userId;
    ElectLeastIsLeast(presences, less);
    assert presences[0] in presences;
  }

  /**
   The host can be re-elected on its own departure. When the departing host carries the least
   session id of the listed presences, which is what the previous re-election chose, the
   election picks the same departing user again, and the match is left with a host that is
   no longer in it.
   */
  lemma DepartingHostReelected(m: Manager, ev: PresenceEvent, less: Order)
    requires StrictTotalOrder(less)
    requires m.host.Some? && m.local.Some? && m.currentMatch.Some?
    requires m.currentMatch.value.presences != [] && m.currentMatch.value.presences[0] == m.host.value
    requires forall p :: p in m.currentMatch.value.presences && p != m.host.value ==> less(m.host.value.sessionId, p.sessionId)
    requires ev.leaves == [m.host.value]
    ensures var r := OnReceivedMatchPresence(m, ev, less);
      r.Done? && r.manager.host == m.host
  {
    StaleListReelectsLeaver(m.currentMatch.value.presences, m.host.value, less);
  }

  /**
   The handler's two halves are separate steps, and a presence event can be handled between
   them. On a first match the host is already set but there is no current match yet, so a
   departure of that host makes the presence handler dereference the missing match.
   */
  lemma HostLeavesBeforeJoin(m: Manager, users: seq<Presence>, self: Presence, less: Order, ev: PresenceEvent)
    requires users != [] && m.currentMatch.None?
    requires ev.leaves == [ElectGreatest(users, less)]
    ensures var before := MatchedBeforeJoin(m, users, self, less);
      && before.Done?
      && OnReceivedMatchPresence(before.manager, ev, less) == Threw(NullReference)
  {
    var before := MatchedBeforeJoin(m, users, self, less);
    assert HostLeaves(before.manager.host.value, ev.leaves) by {
      assert ev.leaves[0].userId == before.manager.host.value.userId;
    }
  }

  /** The re-election among the presences still in the match: the listed presences whose
      user is not leaving. With nobody left there is no host. */
  function Remaining(presences: seq<Presence>, leaves: seq<Presence>): (r: seq<Presence>)
    ensures forall p :: p in r <==> p in presences && !HostLeaves(p, leaves)
  {
    if presences == [] then []
    else (if HostLeaves(presences[0], leaves) then [] else [presences[0]]) + Remaining(presences[1..], leaves)
  }

  /** The corrected election: the least session id among the listed presences that stay, or
      no host when none stays. */
  function ElectAmongRemaining(presences: seq<Presence>, leaves: seq<Presence>, less: Order): (r: Option<Presence>)
    ensures r.None? <==> Remaining(presences, leaves) == []
    ensures r.Some? ==> r.value in presences && !HostLeaves(r.value, leaves)
  {
    var remaining := Remaining(presences, leaves);
    if remaining == [] then None else Some(ElectLeast(remaining, less))
  }

  /** The presence handler with the re-election over the remaining presences. */
  function OnReceivedMatchPresenceCorrected(m: Manager, ev: PresenceEvent, less: Order): (r: Outcome)
    ensures r.Done? && m.host.Some? && HostLeaves(m.host.value, ev.leaves) ==>
      && m.currentMatch.Some?
      && r.manager.host == ElectAmongRemaining(m.currentMatch.value.presences, ev.leaves, less)
      && (r.manager.host.None? || !HostLeaves(r.manager.host.value, ev.leaves))
    ensures r.Done? ==>
      && r.manager.local == m.local
      && r.manager.currentMatch == m.currentMatch
      && r.manager.players.Keys == (m.players.Keys + SessionSet(ev.joins)) - SessionSet(ev.leaves)
    ensures r.Done? && !(m.host.Some? && HostLeaves(m.host.value, ev.leaves)) ==> r.manager.host == m.host
    ensures r.Done? ==> PresenceHandled(m, ev, r)
  {
    if ev.leaves != [] && m.host.None? then Threw(NullReference)
    else if m.host.Some? && HostLeaves(m.host.value, ev.leaves) && m.currentMatch.None? then Threw(NullReference)
    else
      var reelected :=
        if m.host.Some? && HostLeaves(m.host.value, ev.leaves)
        then m.(host := ElectAmongRemaining(m.currentMatch.value.presences, ev.leaves, less))
        else m;
      JoinThenLeave(reelected, ev)
  }

  /** With the correction the new host carries the least session id among the presences that
      stay. */
  lemma CorrectedElectsAmongRemaining(presences: seq<Presence>, leaves: seq<Presence>, less: Order)
    requires StrictTotalOrder(less)
    ensures var h := ElectAmongRemaining(presences, leaves, less);
      h.Some? ==>
        forall p :: p in presences && !HostLeaves(p, leaves) ==>
          p.sessionId == h.value.sessionId || less(h.value.sessionId, p.sessionId)
  {
    var remaining := Remaining(presences, leaves);
    if remaining != [] {
      ElectLeastIsLeast(remaining, less);
    }
  }

  /** `QuitMatch`: the current match and the local presence are cleared and the player map is
      emptied; the host presence is kept. */
  function QuitMatch(m: Manager): (r: Manager)
    ensures r.currentMatch.None? && r.local.None? && r.players == map[]
    ensures r.host == m.host
  {
    m.(currentMatch := None, local := None, players := map[])
  }

  /** Quitting between the matchmaker handler's two halves clears the local presence, so the
      second half throws on the joined match's first presence. */
  lemma QuitBeforeJoin(m: Manager, users: seq<Presence>, self: Presence, less: Order, joined: Match)
    requires users != [] && joined.presences != []
    ensures var before := MatchedBeforeJoin(m, users, self, less);
      && before.Done?
      && MatchJoined(QuitMatch(before.manager), joined) == Threw(NullReference)
  {
    assert joined.presences[0].sessionId in SessionSet(joined.presences);
  }

  /** After quitting, this peer is no longer host (unless the kept host's session id is the
      stand-in "user"), and any state from the match is ignored. */
  lemma QuitEndsHosting(m: Manager, state: MatchState)
    requires m.host.Some? ==> m.host.value.sessionId != "user"
    ensures !IsHost(QuitMatch(m))
    ensures OnReceivedMatchState(QuitMatch(m), state) == Ignored
  {
  }

  /** A state message: the sender's session, the operation code and the payload. */
  datatype MatchState = MatchState(sender: SessionId, opCode: OpCode, payload: Payload)

  /** What a state message leads to: nothing, one event, or a read past the payload's end. */
  datatype Received = Ignored | Raised(event: Event) | ReadFailed

  /** The sender is a network player whose presence carries the sender's own session. */
  predicate IsRemoteSender(m: Manager, sender: SessionId)
  {
    sender in m.players && m.players[sender].NetworkPlayer? && m.players[sender].user.sessionId == sender
  }

  /**
   `OnReceivedMatchState`: state from an unmapped session, from the local player or with an
   unknown operation code is ignored; otherwise the payload is read by the decoder of its
   operation code and the matching event is raised.
   */
  function OnReceivedMatchState(m: Manager, state: MatchState): (r: Received)
    ensures !IsRemoteSender(m, state.sender) || state.opCode.Unrecognised? ==> r == Ignored
    ensures r.Raised? ==> IsRemoteSender(m, state.sender)
    ensures r.Raised? && state.opCode == PaddlePacket ==>
      r.event.ReceivedRemotePaddleState? && r.event.sessionId == state.sender
      && |state.payload| >= 5 && state.payload[..5] == WritePaddle(r.event.paddle)
    ensures r.Raised? && state.opCode == BallPacket ==>
      r.event.ReceivedRemoteBallState? && |state.payload| >= 2 && state.payload[..2] == WriteBall(r.event.ball)
    ensures r.Raised? && state.opCode == ScoreEvent ==>
      r.event.ReceivedRemoteScore? && |state.payload| >= 2 && state.payload[..2] == WriteScore(r.event.score)
    ensures IsRemoteSender(m, state.sender) && !state.opCode.Unrecognised? ==> r != Ignored
  {
    if !IsRemoteSender(m, state.sender) then Ignored
    else
      var sessionId := m.players[state.sender].user.sessionId;
      match state.opCode
      case PaddlePacket =>
        (match ReadPaddle(state.payload)
         case Some(p) => Raised(ReceivedRemotePaddleState(p, sessionId))
         case None => ReadFailed)
      case BallPacket =>
        (match ReadBall(state.payload)
         case Some(b) => Raised(ReceivedRemoteBallState(b))
         case None => ReadFailed)
      case ScoreEvent =>
        (match ReadScore(state.payload)
         case Some(s) => Raised(ReceivedRemoteScore(s))
         case None => ReadFailed)
      case Unrecognised(_) => Ignored
  }

  /** What a remote peer writes arrives as the matching event with the same fields, whatever
      stale bytes follow in its buffer. */
  lemma StateDelivered(m: Manager, sender: SessionId, rest: Payload, p: PaddleFields, b: BallFields, s: ScoreFields)
    requires IsRemoteSender(m, sender)
    ensures OnReceivedMatchState(m, MatchState(sender, PaddlePacket, WritePaddle(p) + rest))
      == Raised(ReceivedRemotePaddleState(p, sender))
    ensures OnReceivedMatchState(m, MatchState(sender, BallPacket, WriteBall(b) + rest))
      == Raised(ReceivedRemoteBallState(b))
    ensures OnReceivedMatchState(m, MatchState(sender, ScoreEvent, WriteScore(s) + rest))
      == Raised(ReceivedRemoteScore(s))
  {
    PaddleRoundTrip(p, rest);
    BallRoundTrip(b, rest);
    ScoreRoundTrip(s, rest);
  }
}

=== FILE: packets.dfy ===
/**
 The wire payloads. The byte layout of the packet writer and reader is not part of this
 model: a payload is the sequence of typed fields written into it, in order. A reader takes
 the fields it expects from the front and ignores whatever follows (the writer's reusable
 buffer is sent whole); a payload that is too short, or holds a field of another kind where
 one is expected, does not decode.
 */
module Packets {
  import opened Types

  /** One primitive the packet writer can write. */
  datatype Field = Single(f: real) | Vec(v: Vector2) | Boolean(b: bool) | Int32(i: int)

  type Payload = seq<Field>

  /** The operation codes distinguishing the three binary messages; the numeric values are
      not part of this model, so every other code is `Unrecognised`. */
  datatype OpCode = PaddlePacket | BallPacket | ScoreEvent | Unrecognised(code: int)

  /** A state message handed to the transport. */
  datatype Outgoing = Outgoing(opCode: OpCode, payload: Payload)

  /** The paddle packet: the sender's tick length, then its paddle state. */
  datatype PaddleFields = PaddleFields(totalSeconds: real, position: Vector2, velocity: Vector2, moveUp: bool, moveDown: bool)

  datatype BallFields = BallFields(direction: real, position: Vector2)

  datatype ScoreFields = ScoreFields(player1Score: int, player2Score: int)

  const INT32_MIN: int := -0x8000_0000
  const INT32_MAX: int := 0x7FFF_FFFF

  /** The packet writer's `Reset`: the reusable buffer's write cursor goes back to the start. */
  function Reset(writer: Payload): Payload
  {
    []
  }

  /** One `Write` of a primitive at the writer's cursor. */
  function Write(writer: Payload, f: Field): Payload
  {
    writer + [f]
  }

  /** The field sequence of a paddle packet. */
  function WritePaddle(p: PaddleFields): Payload
  {
    [Single(p.totalSeconds), Vec(p.position), Vec(p.velocity), Boolean(p.moveUp), Boolean(p.moveDown)]
  }

  function WriteBall(b: BallFields): Payload
  {
    [Single(b.direction), Vec(b.position)]
  }

  function WriteScore(s: ScoreFields): Payload
  {
    [Int32(s.player1Score), Int32(s.player2Score)]
  }

  /** `UpdateRemotePaddleStateFromPacket`'s reads: single, vector, vector, boolean, boolean. */
  function ReadPaddle(payload: Payload): (r: Option<PaddleFields>)
    ensures |payload| < 5 ==> r == None
    ensures r.Some? ==> |payload| >= 5 && payload[..5] == WritePaddle(r.value)
  {
    if |payload| >= 5 && payload[0].Single? && payload[1].Vec? && payload[2].Vec?
       && payload[3].Boolean? && payload[4].Boolean?
    then Some(PaddleFields(payload[0].f, payload[1].v, payload[2].v, payload[3].b, payload[4].b))
    else None
  }

  /** `UpdateDirectionAndPositionFromState`'s reads: single, vector. */
  function ReadBall(payload: Payload): (r: Option<BallFields>)
    ensures |payload| < 2 ==> r == None
    ensures r.Some? ==> |payload| >= 2 && payload[..2] == WriteBall(r.value)
  {
    if |payload| >= 2 && payload[0].Single? && payload[1].Vec?
    then Some(BallFields(payload[0].f, payload[1].v))
    else None
  }

  /** `UpdateScoreFromState`'s reads: two 32-bit integers. */
  function ReadScore(payload: Payload): (r: Option<ScoreFields>)
    ensures |payload| < 2 ==> r == None
    ensures r.Some? ==> |payload| >= 2 && payload[..2] == WriteScore(r.value)
  {
    if |payload| >= 2 && payload[0].Int32? && payload[1].Int32?
    then Some(ScoreFields(payload[0].i, payload[1].i))
    else None
  }

  /** The paddle reader inverts the writer, whatever stale fields follow in the buffer. */
  lemma PaddleRoundTrip(p: PaddleFields, rest: Payload)
    ensures ReadPaddle(WritePaddle(p) + rest) == Some(p)
  {
  }

  lemma BallRoundTrip(b: BallFields, rest: Payload)
    ensures ReadBall(WriteBall(b) + rest) == Some(b)
  {
  }

  lemma ScoreRoundTrip(s: ScoreFields, rest: Payload)
    ensures ReadScore(WriteScore(s) + rest) == Some(s)
  {
  }
}

=== FILE: play_game_phase.dfy ===
/**
 `PlayGamePhase`: the game phase that wires the session manager's events to the ECS manager.
 Spawns take the next of two mirrored spawn points, alternating with the ball's bounce
 direction; a remote spawn also registers the session in the player/entity mapper as player
 two; received paddle and ball states and removals go to the ECS manager's queues; a received
 score overwrites the local totals.
 */
module PlayGamePhase {
  import opened Types
  import opened Packets
  import opened EcsManager
  import NetworkGameManager
  import GoalScoredSync

  /** `BaseGame.SCREEN_WIDTH` and `BaseGame.SCREEN_HEIGHT`. */
  const SCREEN_WIDTH: int := 800
  const SCREEN_HEIGHT: int := 452

  const PLAYER_OFFSET_X: int := 32

  /** The two spawn points, at the left and right edges, half way down (integer halving). */
  const SPAWN_POINTS: seq<Vector2> := [
    Vector2(PLAYER_OFFSET_X as real, (SCREEN_HEIGHT / 2) as real),
    Vector2((SCREEN_WIDTH - PLAYER_OFFSET_X) as real, (SCREEN_HEIGHT / 2) as real)]

  /** The phase's state: the spawn slot, the bounce direction the next paddle gets, the ECS
      manager's queues, the mapper and the match score. */
  datatype Phase = Phase(spawnIndex: int, bounceDirection: int, queues: Queues, mapper: Mapper, gameState: GameState)

  const INITIAL_PHASE: Phase := Phase(0, -1, EMPTY_QUEUES, EMPTY_MAPPER, GameState(0, 0))

  /** C#'s `%` on `int`: the remainder takes the sign of the dividend. */
  function CsRem(a: int, b: int): (r: int)
    requires b != 0
    ensures a >= 0 ==> r == a % b
    ensures -(if b > 0 then b else -b) < r < (if b > 0 then b else -b)
  {
    if a >= 0 then a % b else -((-a) % b)
  }

  /** The spawn slot is a valid index and the bounce direction is the one that goes with it:
      left paddles bounce with -1, right paddles with +1. */
  predicate SlotInvariant(ph: Phase)
  {
    && 0 <= ph.spawnIndex < |SPAWN_POINTS|
    && ph.bounceDirection == (if ph.spawnIndex == 0 then -1 else 1)
  }

  /** `PrepareNextPlayer`: the slot advances modulo the number of spawn points and the bounce
      direction flips; nothing else changes. */
  function PrepareNextPlayer(ph: Phase): (r: Phase)
    ensures r == ph.(spawnIndex := r.spawnIndex, bounceDirection := r.bounceDirection)
    ensures r.bounceDirection == -ph.bounceDirection
    ensures ph.spawnIndex >= 0 ==> r.spawnIndex == (ph.spawnIndex + 1) % 2
    ensures SlotInvariant(ph) ==> SlotInvariant(r) && r.spawnIndex != ph.spawnIndex
  {
    ph.(spawnIndex := CsRem(ph.spawnIndex + 1, |SPAWN_POINTS|), bounceDirection := -ph.bounceDirection)
  }

  /** Two spawns bring the slot and the bounce direction back to where they were. */
  lemma TwoSpawnsRestore(ph: Phase)
    requires SlotInvariant(ph)
    ensures PrepareNextPlayer(PrepareNextPlayer(ph)) == ph
  {
  }

  /** `OnSpawnedLocalPlayer`: a local spawn at the current slot with the current bounce
      direction is queued; the mapper is not touched. */
  function OnSpawnedLocalPlayer(ph: Phase): (r: Phase)
    requires 0 <= ph.spawnIndex < |SPAWN_POINTS|
    ensures r.mapper == ph.mapper && r.gameState == ph.gameState
    ensures r.queues == SpawnLocalPlayer(ph.queues, SPAWN_POINTS[ph.spawnIndex], ph.bounceDirection)
    ensures r.bounceDirection == -ph.bounceDirection
    ensures r.spawnIndex == (ph.spawnIndex + 1) % 2
  {
    var position := SPAWN_POINTS[ph.spawnIndex];
    PrepareNextPlayer(ph.(queues := SpawnLocalPlayer(ph.queues, position, ph.bounceDirection)))
  }

  /** `AddPlayer`: the session is registered with a player index. */
  function AddPlayer(mapper: Mapper, index: PlayerIndex, sessionId: SessionId): (r: Mapper)
    ensures r.entities == mapper.entities
    ensures r.indices.Keys == mapper.indices.Keys + {sessionId} && r.indices[sessionId] == index
    ensures forall s :: s in mapper.indices && s != sessionId ==> r.indices[s] == mapper.indices[s]
  {
    mapper.(indices := mapper.indices[sessionId := index])
  }

  /** `OnSpawnedRemotePlayer`: a remote spawn at the current slot is queued, and the session
      is registered as player two. */
  function OnSpawnedRemotePlayer(ph: Phase, sessionId: SessionId): (r: Phase)
    requires 0 <= ph.spawnIndex < |SPAWN_POINTS|
    ensures r.mapper == AddPlayer(ph.mapper, Two, sessionId) && r.gameState == ph.gameState
    ensures r.queues == SpawnRemotePlayer(ph.queues, SPAWN_POINTS[ph.spawnIndex], ph.bounceDirection)
    ensures r.bounceDirection == -ph.bounceDirection
    ensures r.spawnIndex == (ph.spawnIndex + 1) % 2
  {
    var position := SPAWN_POINTS[ph.spawnIndex];
    var queued := ph.(queues := SpawnRemotePlayer(ph.queues, position, ph.bounceDirection));
    PrepareNextPlayer(queued.(mapper := AddPlayer(ph.mapper, Two, sessionId)))
  }

  /** `OnReceivedRemoteScore`: both totals are overwritten with the received ones, whatever
      they were. */
  function OnReceivedRemoteScore(ph: Phase, score: ScoreFields): (r: Phase)
    ensures r.gameState.player1Score == score.player1Score && r.gameState.player2Score == score.player2Score
    ensures r == ph.(gameState := r.gameState)
  {
    ph.(gameState := GameState(score.player1Score, score.player2Score))
  }

  /** A spawn event needs a valid slot: the slot indexes the spawn-point array. */
  predicate CanHandle(ph: Phase, ev: NetworkGameManager.Event)
  {
    ev.SpawnedLocalPlayer? || ev.SpawnedRemotePlayer? ==> 0 <= ph.spawnIndex < |SPAWN_POINTS|
  }

  /** The handlers `Initialise` subscribes to the manager's six events. */
  function Handle(ph: Phase, ev: NetworkGameManager.Event): (r: Phase)
    requires CanHandle(ph, ev)
    ensures !ev.ReceivedRemoteScore? ==> r.gameState == ph.gameState
    ensures !ev.SpawnedRemotePlayer? && !ev.RemovedPlayer? ==> r.mapper == ph.mapper
    ensures ev.SpawnedLocalPlayer? || ev.SpawnedRemotePlayer? ==> SlotInvariant(ph) ==> SlotInvariant(r)
    ensures !ev.SpawnedLocalPlayer? && !ev.SpawnedRemotePlayer? ==>
      r.spawnIndex == ph.spawnIndex && r.bounceDirection == ph.bounceDirection
  {
    match ev
    case SpawnedLocalPlayer => OnSpawnedLocalPlayer(ph)
    case SpawnedRemotePlayer(sessionId) => OnSpawnedRemotePlayer(ph, sessionId)
    case ReceivedRemotePaddleState(paddle, sessionId) =>
      ph.(queues := ReceivedRemotePaddleState(ph.queues, ph.mapper, paddle, sessionId))
    case ReceivedRemoteBallState(ball) =>
      ph.(queues := ReceivedRemoteBallState(ph.queues, ball.direction, ball.position))
    case ReceivedRemoteScore(score) => OnReceivedRemoteScore(ph, score)
    case RemovedPlayer(sessionId) =>
      var destroyed := DestroyEntity(ph.queues, ph.mapper, sessionId);
      ph.(queues := destroyed.0, mapper := destroyed.1)
  }

  /** Whatever events arrive, the spawn slot and the bounce direction stay paired and in
      range, so every spawn event can be handled. */
  function HandleAll(ph: Phase, evs: seq<NetworkGameManager.Event>): (r: Phase)
    requires SlotInvariant(ph)
    ensures SlotInvariant(r)
    decreases |evs|
  {
    if evs == [] then ph else HandleAll(Handle(ph, evs[0]), evs[1..])
  }

  /** The spawn points mirror each other about the vertical centre line, half way down. */
  lemma SpawnPointsMirror()
    ensures |SPAWN_POINTS| == 2
    ensures SPAWN_POINTS[0] == Vector2(32.0, 226.0)
    ensures SPAWN_POINTS[1].x == SCREEN_WIDTH as real - SPAWN_POINTS[0].x
    ensures SPAWN_POINTS[1].y == SPAWN_POINTS[0].y == (SCREEN_HEIGHT / 2) as real
  {
  }

  /** The first spawn of a phase takes the left point bouncing with -1, the second the right
      point bouncing with +1, and then the slot is back to the start. */
  lemma FirstTwoSpawns(sessionId: SessionId)
    ensures var first := OnSpawnedLocalPlayer(INITIAL_PHASE);
      && first.queues.local == [LocalPlayerSpawnMessage(One, SPAWN_POINTS[0], -1)]
      && var second := OnSpawnedRemotePlayer(first, sessionId);
      && second.queues.remote == [RemotePlayerSpawnMessage(Two, SPAWN_POINTS[1], 1)]
      && second.spawnIndex == INITIAL_PHASE.spawnIndex
      && second.bounceDirection == INITIAL_PHASE.bounceDirection
  {
  }

  /**
   The score round trip: when the host's goal sync sends its new totals and a peer that knows
   the host as a remote player receives them, the peer's totals become the host's totals.
   */
  lemma ScoreReachesPeer(hostState: GameState, goals: seq<GoalScoredSync.GoalScoredMessage>,
                         peer: NetworkGameManager.Manager, hostSession: SessionId, ph: Phase)
    requires goals != [] && NetworkGameManager.IsRemoteSender(peer, hostSession)
    requires GoalScoredSync.Int32Scores(hostState)
    ensures var sent := GoalScoredSync.Update(true, hostState, goals);
      var received := NetworkGameManager.OnReceivedMatchState(peer,
        NetworkGameManager.MatchState(hostSession, sent.1[0].opCode, sent.1[0].payload));
      && received.Raised?
      && CanHandle(ph, received.event)
      && Handle(ph, received.event).gameState == sent.0
  {
    var sent := GoalScoredSync.Update(true, hostState, goals);
    GoalScoredSync.SentScoreIsTotals(hostState, goals);
    var s := ScoreFields(sent.0.player1Score, sent.0.player2Score);
    NetworkGameManager.StateDelivered(peer, hostSession, [], PaddleFields(0.0, Vector2(0.0, 0.0), Vector2(0.0, 0.0), false, false),
      BallFields(0.0, Vector2(0.0, 0.0)), s);
    assert sent.1[0].payload == WriteScore(s) + [];
  }
}

=== FILE: remote_paddles.dfy ===
/**
 The ECS world as the remote-paddle systems see it: for each remote paddle entity, its
 simulation, previous and display paddle states and its smoothing factor, plus the
 received-paddle-state message those systems read each tick.
 */
module RemotePaddles {
  import opened Types

  /**
   The network components of one remote paddle. `smoothing` is `None` until the smoothing
   component is first set: the update-remote system only visits entities that have one.
   */
  datatype RemotePaddle = RemotePaddle(
    simulation: PaddleState,
    previous: PaddleState,
    display: PaddleState,
    smoothing: Option<real>)

  type World = map<Entity, RemotePaddle>

  /** `ReceivedRemotePaddleStateMessage`: the target entity and the packet's fields. */
  datatype PaddleMessage = PaddleMessage(
    entity: Entity,
    totalSeconds: real,
    position: Vector2,
    velocity: Vector2,
    moveUp: bool,
    moveDown: bool)

  /** The entities the tick's messages are addressed to. */
  function MessageEntities(msgs: seq<PaddleMessage>): (r: set<Entity>)
    ensures forall i :: 0 <= i < |msgs| ==> msgs[i].entity in r
  {
    set i | 0 <= i < |msgs| :: msgs[i].entity
  }

  /** Every message is addressed to an entity of the world: the systems fetch that entity's
      components, which the ECS requires to exist. */
  predicate Addressed(world: World, msgs: seq<PaddleMessage>)
  {
    forall i :: 0 <= i < |msgs| ==> msgs[i].entity in world
  }

  lemma MessageEntitiesCons(msgs: seq<PaddleMessage>)
    requires msgs != []
    ensures MessageEntities(msgs) == {msgs[0].entity} + MessageEntities(msgs[1..])
  {
    assert forall i :: 1 <= i < |msgs| ==> msgs[i] == msgs[1..][i - 1];
  }

  lemma AddressedTail(world: World, world': World, msgs: seq<PaddleMessage>)
    requires msgs != [] && Addressed(world, msgs) && world'.Keys == world.Keys
    ensures Addressed(world', msgs[1..])
  {
    forall i | 0 <= i < |msgs| - 1
      ensures msgs[1..][i].entity in world'
    {
      assert msgs[1..][i] == msgs[i + 1];
    }
  }
}

=== FILE: reset_smoothing.dfy ===
/**
 `PlayerNetworkRemoteResetSmoothingSystem`: when a paddle packet arrives for a remote paddle,
 start a new smoothing interpolation from what is on screen now (smoothing enabled), or switch
 smoothing off for that paddle (smoothing disabled).
 */
module ResetSmoothingSystem {
  import opened Types
  import opened RemotePaddles

  /** The reset applied to the entity of one message. */
  function ResetOne(p: RemotePaddle, enableSmoothing: bool): (r: RemotePaddle)
    ensures r.simulation == p.simulation && r.display == p.display
    ensures enableSmoothing ==> r.previous == p.display && r.smoothing == Some(1.0)
    ensures !enableSmoothing ==> r.previous == p.previous && r.smoothing == Some(0.0)
  {
    if enableSmoothing then p.(previous := p.display, smoothing := Some(1.0))
    else p.(smoothing := Some(0.0))
  }

  /** Resetting twice is resetting once. */
  lemma ResetIdempotent(p: RemotePaddle, enableSmoothing: bool)
    ensures ResetOne(ResetOne(p, enableSmoothing), enableSmoothing) == ResetOne(p, enableSmoothing)
  {
  }

  /**
   One run of the system over the tick's messages, in order. Its effect is that of resetting
   each addressed entity once, however many messages it received, and leaving every other
   entity as it was.
   */
  function Update(world: World, msgs: seq<PaddleMessage>, enableSmoothing: bool): (r: World)
    requires Addressed(world, msgs)
    ensures r.Keys == world.Keys
    ensures forall e :: e in world ==>
      r[e] == (if e in MessageEntities(msgs) then ResetOne(world[e], enableSmoothing) else world[e])
    decreases |msgs|
  {
    if msgs == [] then world
    else
      var e := msgs[0].entity;
      MessageEntitiesCons(msgs);
      ResetIdempotent(world[e], enableSmoothing);
      AddressedTail(world, world[e := ResetOne(world[e], enableSmoothing)], msgs);
      Update(world[e := ResetOne(world[e], enableSmoothing)], msgs[1..], enableSmoothing)
  }

  /** The system never writes a display or simulation state, and every messaged entity ends
      with a factor of exactly 0 or 1. */
  lemma ResetKeepsDisplayAndSimulation(world: World, msgs: seq<PaddleMessage>, enableSmoothing: bool)
    requires Addressed(world, msgs)
    ensures var r := Update(world, msgs, enableSmoothing);
      forall e :: e in world ==>
        && r[e].display == world[e].display
        && r[e].simulation == world[e].simulation
        && (e in MessageEntities(msgs) ==> r[e].smoothing == Some(1.0) || r[e].smoothing == Some(0.0))
  {
  }

  /** Several messages for one entity in a tick have the effect of one: only the set of
      addressed entities matters. */
  lemma DuplicateMessagesAreHarmless(world: World, a: seq<PaddleMessage>, b: seq<PaddleMessage>, enableSmoothing: bool)
    requires Addressed(world, a) && Addressed(world, b)
    requires MessageEntities(a) == MessageEntities(b)
    ensures Update(world, a, enableSmoothing) == Update(world, b, enableSmoothing)
  {
    var ra := Update(world, a, enableSmoothing);
    var rb := Update(world, b, enableSmoothing);
    assert ra.Keys == rb.Keys;
    forall e | e in ra
      ensures ra[e] == rb[e]
    {
    }
  }
}

=== FILE: rolling_average.dfy ===
/**
 The clock-skew estimator: a fixed-capacity circular buffer of samples with a cached running
 sum, a populated count and a write cursor (`RollingAverage.cs`).

 The functional model `RollingAverage` is what the prediction system uses; the class
 `RollingAverageBuffer` is the array-backed form, proved to refine it.
 */
module RollingAverages {
  import opened Types

  /** The state of one estimator: the sample slots, how many are populated, the cached sum
      and the write cursor. */
  datatype RollingAverage = RollingAverage(samples: seq<real>, sampleCount: nat, valueSum: real, position: nat)
  {
    /** The estimator's invariant: a non-empty buffer, the cursor in range, the count capped
        at the capacity, the cursor equal to the count until the buffer has filled, and the
        cached sum equal to the sum of the slots. */
    ghost predicate Valid()
    {
      && |samples| > 0
      && position < |samples|
      && sampleCount <= |samples|
      && (sampleCount < |samples| ==> position == sampleCount)
      && valueSum == SumOf(samples)
    }

    /** `AverageValue`: the mean of the populated samples, or 0 before the first add. */
    function AverageValue(): real
    {
      if sampleCount == 0 then 0.0 else valueSum / sampleCount as real
    }

    /**
     `AddValue`: subtract the slot being overwritten from the sum, add the new value, store it
     at the cursor and advance the cursor; the populated count follows the cursor; when the
     cursor reaches the end it wraps to 0 and the sum is recomputed from the slots. The cursor
     must index a slot, so a zero-capacity estimator cannot take a value.
     */
    function AddValue(x: real): (r: RollingAverage)
      requires position < |samples|
      ensures |r.samples| == |samples|
      ensures r.position < |r.samples|
      ensures r.samples[position] == x
      ensures forall i :: 0 <= i < |samples| && i != position ==> r.samples[i] == samples[i]
      ensures sampleCount <= r.sampleCount
      ensures Valid() ==> r.Valid() && r.sampleCount == Min(sampleCount + 1, |samples|)
    {
      var slots := samples[position := x];
      var incremental := valueSum - samples[position] + x;
      var next := position + 1;
      var count := if next > sampleCount then next else sampleCount;
      SumOfUpdate(samples, position, x);
      if next >= |slots| then
        RollingAverage(slots, count, SumOf(slots), 0)
      else
        RollingAverage(slots, count, incremental, next)
    }
  }

  /** A new estimator tracking `capacity` samples (all slots zero). */
  function New(capacity: nat): (r: RollingAverage)
    ensures |r.samples| == capacity && r.sampleCount == 0 && r.position == 0
    ensures forall i :: 0 <= i < capacity ==> r.samples[i] == 0.0
    ensures r.AverageValue() == 0.0
  {
    RollingAverage(Zeros(capacity), 0, 0.0, 0)
  }

  /** A new estimator with at least one slot satisfies the invariant. */
  lemma NewIsValid(capacity: nat)
    requires capacity > 0
    ensures New(capacity).Valid()
  {
    SumOfZeros(capacity);
  }

  /** The wrap-time recomputation agrees with the incremental update whenever the cached sum
      was exact before the add: in exact arithmetic the recomputation changes nothing. */
  lemma IncrementalSumAgrees(ra: RollingAverage, x: real)
    requires ra.Valid()
    ensures ra.AddValue(x).valueSum == ra.valueSum - ra.samples[ra.position] + x
  {
    SumOfUpdate(ra.samples, ra.position, x);
  }

  /** The estimator after the values of `history` have been added in order to a new one. */
  function FromHistory(capacity: nat, history: seq<real>): (r: RollingAverage)
    requires capacity > 0
    ensures |r.samples| == capacity && r.position < capacity
    decreases |history|
  {
    if history == [] then New(capacity)
    else FromHistory(capacity, history[..|history| - 1]).AddValue(history[|history| - 1])
  }

  /** The last `min(|history|, capacity)` values added. */
  function Window(capacity: nat, history: seq<real>): seq<real>
  {
    history[|history| - Min(|history|, capacity)..]
  }

  /** The arithmetic mean, 0 for no values. */
  function Mean(xs: seq<real>): real
  {
    if xs == [] then 0.0 else SumOf(xs) / |xs| as real
  }

  /**
   The shape of the buffer after `history`: until it has filled, the slots hold the history in
   order followed by zeros and the cursor is the count; once full, reading the slots from the
   cursor round to just before it gives the last `capacity` values, oldest first. So the slot
   at the cursor is always the oldest sample, the one the next add overwrites.
   */
  ghost predicate Shaped(capacity: nat, history: seq<real>, r: RollingAverage)
  {
    && r.Valid()
    && |r.samples| == capacity
    && r.sampleCount == Min(|history|, capacity)
    && (|history| < capacity ==> r.samples == history + Zeros(capacity - |history|) && r.position == |history|)
    && (|history| >= capacity ==> r.samples[r.position..] + r.samples[..r.position] == history[|history| - capacity..])
  }

  lemma StepWhileFilling(capacity: nat, history: seq<real>, ra: RollingAverage, x: real)
    requires Shaped(capacity, history, ra) && |history| + 1 < capacity
    ensures Shaped(capacity, history + [x], ra.AddValue(x))
  {
    var r := ra.AddValue(x);
    var h := history + [x];
    forall i | 0 <= i < capacity
      ensures r.samples[i] == (h + Zeros(capacity - |h|))[i]
    {
    }
  }

  lemma StepFilling(capacity: nat, history: seq<real>, ra: RollingAverage, x: real)
    requires Shaped(capacity, history, ra) && |history| + 1 == capacity
    ensures Shaped(capacity, history + [x], ra.AddValue(x))
  {
    var r := ra.AddValue(x);
    var h := history + [x];
    assert r.samples == h by {
      forall i | 0 <= i < capacity
        ensures r.samples[i] == h[i]
      {
      }
    }
    assert r.samples[0..] + r.samples[..0] == r.samples;
  }

  lemma StepWhenFull(capacity: nat, history: seq<real>, ra: RollingAverage, x: real)
    requires Shaped(capacity, history, ra) && |history| >= capacity
    ensures Shaped(capacity, history + [x], ra.AddValue(x))
  {
    var h := history + [x];
    assert h[|h| - capacity..] == history[|history| - capacity..][1..] + [x];
    if ra.position + 1 < capacity {
      RotateInside(ra.samples, ra.position, x);
    } else {
      RotateAtEnd(ra.samples, ra.position, x);
    }
  }

  /** Overwriting the oldest slot, not the last, and moving the cursor past it drops the
      oldest value from the rotated window and appends the new one. */
  lemma RotateInside(samples: seq<real>, p: nat, x: real)
    requires p + 1 < |samples|
    ensures var s := samples[p := x];
      s[p + 1..] + s[..p + 1] == (samples[p..] + samples[..p])[1..] + [x]
  {
    var s := samples[p := x];
    assert s[p + 1..] == samples[p + 1..];
    assert s[..p + 1] == samples[..p] + [x];
    assert (samples[p..] + samples[..p])[1..] == samples[p + 1..] + samples[..p];
  }

  /** The same when the oldest slot is the last one and the cursor wraps to 0. */
  lemma RotateAtEnd(samples: seq<real>, p: nat, x: real)
    requires p + 1 == |samples|
    ensures var s := samples[p := x];
      s[0..] + s[..0] == (samples[p..] + samples[..p])[1..] + [x]
  {
    var s := samples[p := x];
    assert s == samples[..p] + [x];
    assert samples[p..] == [samples[p]];
    assert s[0..] + s[..0] == s;
  }

  lemma {:induction false} HistoryShape(capacity: nat, history: seq<real>)
    requires capacity > 0
    ensures Shaped(capacity, history, FromHistory(capacity, history))
    decreases |history|
  {
    if history == [] {
      NewIsValid(capacity);
      assert New(capacity).samples == [] + Zeros(capacity);
    } else {
      var prefix := history[..|history| - 1];
      var x := history[|history| - 1];
      assert history == prefix + [x];
      HistoryShape(capacity, prefix);
      var ra := FromHistory(capacity, prefix);
      if |prefix| + 1 < capacity {
        StepWhileFilling(capacity, prefix, ra, x);
      } else if |prefix| + 1 == capacity {
        StepFilling(capacity, prefix, ra, x);
      } else {
        StepWhenFull(capacity, prefix, ra, x);
      }
    }
  }

  /** `AverageValue` is the arithmetic mean of the last `min(n, capacity)` values added; in
      particular it is 0 before any value is added. */
  lemma AverageIsWindowMean(capacity: nat, history: seq<real>)
    requires capacity > 0
    ensures FromHistory(capacity, history).AverageValue() == Mean(Window(capacity, history))
  {
    HistoryShape(capacity, history);
    var r := FromHistory(capacity, history);
    BufferSumIsWindowSum(capacity, history, r);
    if |history| < capacity {
      assert Window(capacity, history) == history;
    }
  }

  /** The cached sum of a buffer shaped by `history` is the sum of the window. */
  lemma BufferSumIsWindowSum(capacity: nat, history: seq<real>, r: RollingAverage)
    requires Shaped(capacity, history, r)
    ensures r.valueSum == SumOf(Window(capacity, history))
  {
    var n := |history|;
    if n < capacity {
      SumOfAppend(history, Zeros(capacity - n));
      SumOfZeros(capacity - n);
      assert Window(capacity, history) == history;
    } else {
      SumOfAppend(r.samples[r.position..], r.samples[..r.position]);
      assert r.samples == r.samples[..r.position] + r.samples[r.position..];
      SumOfAppend(r.samples[..r.position], r.samples[r.position..]);
    }
  }

  /** The foreach loop of the wrap-time recomputation. */
  method SumSamples(samples: seq<real>) returns (total: real)
    ensures total == SumOf(samples)
  {
    total := 0.0;
    var i := 0;
    while i < |samples|
      invariant 0 <= i <= |samples|
      invariant total == SumOf(samples[..i])
    {
      SumOfAppend(samples[..i], [samples[i]]);
      assert samples[..i + 1] == samples[..i] + [samples[i]];
      total := total + samples[i];
      i := i + 1;
    }
    assert samples[..i] == samples;
  }

  /** The array-backed estimator, as the source writes it. */
  class RollingAverageBuffer {
    const sampleValues: array<real>
    var sampleCount: nat
    var valueSum: real
    var currentPosition: nat

    /** The functional state this object represents. */
    ghost function Model(): RollingAverage
      reads this, sampleValues
    {
      RollingAverage(sampleValues[..], sampleCount, valueSum, currentPosition)
    }

    constructor (capacity: nat)
      ensures Model() == New(capacity)
      ensures fresh(sampleValues)
    {
      sampleValues := new real[capacity](_ => 0.0);
      sampleCount := 0;
      valueSum := 0.0;
      currentPosition := 0;
      new;
      assert sampleValues[..] == Zeros(capacity);
    }

    method AddValue(newValue: real)
      requires currentPosition < sampleValues.Length
      modifies this, sampleValues
      ensures Model() == old(Model()).AddValue(newValue)
    {
      ghost var before := Model();
      valueSum := valueSum - sampleValues[currentPosition];
      valueSum := valueSum + newValue;
      sampleValues[currentPosition] := newValue;
      ghost var slots := sampleValues[..];
      assert slots == before.samples[before.position := newValue];
      currentPosition := currentPosition + 1;
      if currentPosition > sampleCount {
        sampleCount := currentPosition;
      }
      if currentPosition >= sampleValues.Length {
        currentPosition := 0;
        ghost var count := sampleCount;
        var total := 0.0;
        var i := 0;
        while i < sampleValues.Length
          invariant 0 <= i <= sampleValues.Length
          invariant sampleValues[..] == slots
          invariant currentPosition == 0 && sampleCount == count
          invariant total == SumOf(sampleValues[..i])
        {
          SumOfAppend(sampleValues[..i], [sampleValues[i]]);
          assert sampleValues[..i + 1] == sampleValues[..i] + [sampleValues[i]];
          total := total + sampleValues[i];
          i := i + 1;
        }
        assert sampleValues[..i] == sampleValues[..];
        valueSum := total;
      }
    }

    function AverageValue(): (r: real)
      reads this, sampleValues
      ensures r == Model().AverageValue()
    {
      if sampleCount == 0 then 0.0 else valueSum / sampleCount as real
    }
  }
}

=== FILE: send_local_state.dfy ===
/**
 `PlayerNetworkSendLocalStateSystem`: each local paddle's state is broadcast at a fixed rate.
 One shared countdown timer gates the sends: when it has run out, the system rewrites the
 reusable packet writer with the tick length and the paddle state, hands the paddle packet to
 the transport and rearms the timer; every paddle visit then takes the tick length off it.
 */
module SendLocalStateSystem {
  import opened Types
  import opened Packets

  /** How many state packets a second the system aims for. */
  const UPDATES_PER_SECOND: int := 10

  /** `1.0f / UPDATES_PER_SECOND`: the seconds between two state packets. */
  const STATE_FREQUENCY: real := 1.0 / UPDATES_PER_SECOND as real

  /** The components the system reads from a local paddle. */
  datatype LocalPaddle = LocalPaddle(entity: Entity, position: Vector2, velocity: Vector2, moveUp: bool, moveDown: bool)

  /** The system's own state: the countdown and the reusable writer. A new system's countdown
      is 0, so its first update sends. */
  datatype Sender = Sender(timer: real, writer: Payload)

  const INITIAL_SENDER: Sender := Sender(0.0, [])

  /** The packet fields a paddle is sent as, for a tick of `tickSeconds`. */
  function FieldsOf(tickSeconds: real, p: LocalPaddle): PaddleFields
  {
    PaddleFields(tickSeconds, p.position, p.velocity, p.moveUp, p.moveDown)
  }

  /**
   One paddle visit. An expired countdown (at most 0) sends a paddle packet and rearms the
   countdown to the period; the countdown then loses the tick length either way. The modelled
   payload is the fields written since the writer's reset; the rest of the writer's underlying
   buffer, which the transport also receives, is not part of this model.
   */
  function SendOne(s: Sender, tickSeconds: real, p: LocalPaddle): (r: (Sender, seq<Outgoing>))
    ensures s.timer <= 0.0 ==> r.1 == [Outgoing(PaddlePacket, WritePaddle(FieldsOf(tickSeconds, p)))]
    ensures s.timer <= 0.0 ==> ReadPaddle(r.1[0].payload) == Some(FieldsOf(tickSeconds, p))
    ensures s.timer <= 0.0 ==> r.0.timer == STATE_FREQUENCY - tickSeconds
    ensures s.timer > 0.0 ==> r.1 == [] && r.0 == Sender(s.timer - tickSeconds, s.writer)
  {
    if s.timer <= 0.0 then
      var w := Write(Write(Write(Write(Write(Reset(s.writer), Single(tickSeconds)),
        Vec(p.position)), Vec(p.velocity)), Boolean(p.moveUp)), Boolean(p.moveDown));
      assert w == WritePaddle(FieldsOf(tickSeconds, p));
      PaddleRoundTrip(FieldsOf(tickSeconds, p), []);
      assert w + [] == w;
      (Sender(STATE_FREQUENCY - tickSeconds, w), [Outgoing(PaddlePacket, w)])
    else
      (Sender(s.timer - tickSeconds, s.writer), [])
  }

  /** The packet sent for paddle `p` on a tick of `tickSeconds`. */
  function PacketFor(tickSeconds: real, p: LocalPaddle): Outgoing
  {
    Outgoing(PaddlePacket, WritePaddle(FieldsOf(tickSeconds, p)))
  }

  /**
   One run of the system over the local paddles, in filter order. At most one packet per
   paddle leaves, each the packet of one of the paddles, decoding to that paddle's state and
   the tick length the system was updated with. With no local paddle nothing changes; when
   nothing is sent, the shared countdown has lost one tick length per paddle.
   */
  function Update(s: Sender, tickSeconds: real, paddles: seq<LocalPaddle>): (r: (Sender, seq<Outgoing>))
    ensures paddles == [] ==> r == (s, [])
    ensures |r.1| <= |paddles|
    ensures forall i :: 0 <= i < |r.1| ==>
      && r.1[i].opCode == PaddlePacket
      && ReadPaddle(r.1[i].payload).Some?
      && ReadPaddle(r.1[i].payload).value.totalSeconds == tickSeconds
    ensures forall i :: 0 <= i < |r.1| ==>
      exists j :: 0 <= j < |paddles| && r.1[i] == PacketFor(tickSeconds, paddles[j])
    ensures r.1 == [] ==> r.0 == Sender(s.timer - Elapsed(|paddles|, tickSeconds), s.writer)
    ensures paddles != [] && s.timer <= 0.0 ==> r.1 != [] && r.1[0] == PacketFor(tickSeconds, paddles[0])
    decreases |paddles|
  {
    if paddles == [] then (s, [])
    else
      var first := SendOne(s, tickSeconds, paddles[0]);
      var rest := Update(first.0, tickSeconds, paddles[1..]);
      SentArePackets(tickSeconds, paddles, first.1, rest.1);
      (rest.0, first.1 + rest.1)
  }

  /** Packets for the first paddle followed by packets for the others are packets for the
      whole sequence, each a paddle packet carrying the tick length. */
  lemma SentArePackets(tickSeconds: real, paddles: seq<LocalPaddle>, first: seq<Outgoing>, rest: seq<Outgoing>)
    requires paddles != []
    requires forall i :: 0 <= i < |first| ==> first[i] == PacketFor(tickSeconds, paddles[0])
    requires forall i :: 0 <= i < |rest| ==>
      exists j :: 0 <= j < |paddles[1..]| && rest[i] == PacketFor(tickSeconds, paddles[1..][j])
    ensures forall i :: 0 <= i < |first + rest| ==>
      exists j :: 0 <= j < |paddles| && (first + rest)[i] == PacketFor(tickSeconds, paddles[j])
    ensures forall i :: 0 <= i < |first + rest| ==>
      && (first + rest)[i].opCode == PaddlePacket
      && ReadPaddle((first + rest)[i].payload).Some?
      && ReadPaddle((first + rest)[i].payload).value.totalSeconds == tickSeconds
  {
    var sent := first + rest;
    forall i | 0 <= i < |sent|
      ensures exists j :: 0 <= j < |paddles| && sent[i] == PacketFor(tickSeconds, paddles[j])
    {
      if i < |first| {
        assert sent[i] == PacketFor(tickSeconds, paddles[0]);
      } else {
        assert sent[i] == rest[i - |first|];
        var k :| 0 <= k < |paddles[1..]| && rest[i - |first|] == PacketFor(tickSeconds, paddles[1..][k]);
        assert paddles[1..][k] == paddles[k + 1];
        assert sent[i] == PacketFor(tickSeconds, paddles[k + 1]);
      }
    }
    forall i | 0 <= i < |sent|
      ensures sent[i].opCode == PaddlePacket
      ensures ReadPaddle(sent[i].payload).Some? && ReadPaddle(sent[i].payload).value.totalSeconds == tickSeconds
    {
      var j :| 0 <= j < |paddles| && sent[i] == PacketFor(tickSeconds, paddles[j]);
      PacketForDecodes(tickSeconds, paddles[j]);
    }
  }

  /** A paddle's packet decodes to the paddle's fields under the tick length. */
  lemma PacketForDecodes(tickSeconds: real, p: LocalPaddle)
    ensures PacketFor(tickSeconds, p).opCode == PaddlePacket
    ensures ReadPaddle(PacketFor(tickSeconds, p).payload) == Some(FieldsOf(tickSeconds, p))
  {
    PaddleRoundTrip(FieldsOf(tickSeconds, p), []);
    assert WritePaddle(FieldsOf(tickSeconds, p)) + [] == PacketFor(tickSeconds, p).payload;
  }

  /** The countdown time `n` paddle visits of `d` seconds take off. */
  function Elapsed(n: nat, d: real): real
  {
    if n == 0 then 0.0 else Elapsed(n - 1, d) + d
  }

  /** `n` visits of `d` seconds take off `n d` seconds. */
  lemma {:induction false} ElapsedIsProduct(n: nat, d: real)
    ensures Elapsed(n, d) == n as real * d
  {
    if n > 0 {
      ElapsedIsProduct(n - 1, d);
      OneMoreTick(n - 1, d);
    }
  }

  /** n ticks and one more are n + 1 ticks. */
  lemma OneMoreTick(n: nat, d: real)
    ensures n as real * d + d == (n + 1) as real * d
  {
  }

  /**
   The countdown is shared by all local paddles. From an expired countdown, when the tick
   length times the number of paddles stays below the period, only the first paddle's packet
   leaves: the first visit rearms the countdown and every later visit finds it still running.
   With more than one local paddle, the others are starved for as long as this holds.
   */
  lemma {:induction false} OnlyFirstPaddleSends(s: Sender, tickSeconds: real, paddles: seq<LocalPaddle>)
    requires paddles != [] && s.timer <= 0.0 && tickSeconds > 0.0
    requires Elapsed(|paddles|, tickSeconds) < STATE_FREQUENCY
    ensures var r := Update(s, tickSeconds, paddles);
      && r.1 == [PacketFor(tickSeconds, paddles[0])]
      && r.0.timer == STATE_FREQUENCY - Elapsed(|paddles|, tickSeconds)
  {
    var first := SendOne(s, tickSeconds, paddles[0]);
    assert first.0.timer == STATE_FREQUENCY - tickSeconds;
    var m: nat := |paddles| - 1;
    assert Elapsed(m + 1, tickSeconds) == Elapsed(m, tickSeconds) + tickSeconds;
    if m > 0 {
      assert Elapsed(m, tickSeconds) == Elapsed(m - 1, tickSeconds) + tickSeconds;
      assert first.0.timer - Elapsed(m - 1, tickSeconds) > 0.0;
    }
    QuietVisits(first.0, tickSeconds, paddles[1..]);
    assert first.1 + [] == first.1;
  }

  /** While the countdown stays positive over every visit, no paddle sends and each visit
      only counts it down. */
  lemma {:induction false} QuietVisits(s: Sender, tickSeconds: real, paddles: seq<LocalPaddle>)
    requires tickSeconds >= 0.0
    requires paddles != [] ==> s.timer - Elapsed(|paddles| - 1, tickSeconds) > 0.0
    ensures Update(s, tickSeconds, paddles) == (Sender(s.timer - Elapsed(|paddles|, tickSeconds), s.writer), [])
    decreases |paddles|
  {
    if paddles != [] {
      var m: nat := |paddles| - 1;
      assert s.timer > 0.0 by {
        ElapsedIsProduct(m, tickSeconds);
        assert m as real * tickSeconds >= 0.0;
      }
      var first := SendOne(s, tickSeconds, paddles[0]);
      assert first == (Sender(s.timer - tickSeconds, s.writer), []);
      if m > 0 {
        assert first.0.timer - Elapsed(m - 1, tickSeconds) == s.timer - Elapsed(m, tickSeconds);
      }
      QuietVisits(first.0, tickSeconds, paddles[1..]);
      assert first.1 + [] == first.1;
    }
  }

  /** Two local paddles on ticks shorter than half the period: only the first one's state
      is ever sent from an expired countdown, and the countdown ends at the period less two
      ticks. */
  lemma TwoPaddlesOneSend(s: Sender, tickSeconds: real, p: LocalPaddle, q: LocalPaddle)
    requires s.timer <= 0.0 && 0.0 < tickSeconds && 2.0 * tickSeconds < STATE_FREQUENCY
    ensures Update(s, tickSeconds, [p, q]).1 == [PacketFor(tickSeconds, p)]
    ensures Update(s, tickSeconds, [p, q]).0.timer == STATE_FREQUENCY - 2.0 * tickSeconds
  {
    assert Elapsed(1, tickSeconds) == tickSeconds;
    assert Elapsed(2, tickSeconds) == 2.0 * tickSeconds;
    OnlyFirstPaddleSends(s, tickSeconds, [p, q]);
  }

  /** What the receiving peer decodes from a packet sent for a paddle: exactly the tick length
      and the paddle's position, velocity and inputs. */
  lemma SentPacketDecodes(s: Sender, tickSeconds: real, p: LocalPaddle)
    requires s.timer <= 0.0
    ensures var r := Update(s, tickSeconds, [p]);
      && |r.1| == 1
      && ReadPaddle(r.1[0].payload) == Some(FieldsOf(tickSeconds, p))
  {
    SinglePaddleUpdate(s, tickSeconds, p);
  }

  /** With a single local paddle, a run of the system is one visit. */
  lemma SinglePaddleUpdate(s: Sender, tickSeconds: real, p: LocalPaddle)
    ensures Update(s, tickSeconds, [p]) == SendOne(s, tickSeconds, p)
  {
    var first := SendOne(s, tickSeconds, p);
    assert [p][1..] == [];
    assert first.1 + [] == first.1;
  }

  /** `n` ticks of the system with one local paddle whose state does not change. */
  function Run(s: Sender, tickSeconds: real, p: LocalPaddle, n: nat): (Sender, seq<Outgoing>)
    decreases n
  {
    if n == 0 then (s, [])
    else
      var first := Update(s, tickSeconds, [p]);
      var rest := Run(first.0, tickSeconds, p, n - 1);
      (rest.0, first.1 + rest.1)
  }

  lemma {:induction false} RunSplit(s: Sender, tickSeconds: real, p: LocalPaddle, a: nat, b: nat)
    ensures var ra := Run(s, tickSeconds, p, a);
      var rb := Run(ra.0, tickSeconds, p, b);
      Run(s, tickSeconds, p, a + b) == (rb.0, ra.1 + rb.1)
    decreases a
  {
    if a > 0 {
      var first := Update(s, tickSeconds, [p]);
      RunSplit(first.0, tickSeconds, p, a - 1, b);
      var ra := Run(first.0, tickSeconds, p, a - 1);
      var rb := Run(ra.0, tickSeconds, p, b);
      assert Run(s, tickSeconds, p, a) == (ra.0, first.1 + ra.1);
      assert Run(s, tickSeconds, p, a + b) == (rb.0, first.1 + (ra.1 + rb.1));
      assert first.1 + (ra.1 + rb.1) == (first.1 + ra.1) + rb.1;
    } else {
      var rb := Run(s, tickSeconds, p, b);
      assert [] + rb.1 == rb.1;
    }
  }

  /** While the countdown stays positive, ticks send nothing and only count it down. */
  lemma {:induction false} QuietTicks(s: Sender, tickSeconds: real, p: LocalPaddle, n: nat)
    requires tickSeconds >= 0.0
    requires n > 0 ==> s.timer - (n - 1) as real * tickSeconds > 0.0
    ensures Run(s, tickSeconds, p, n) == (Sender(s.timer - n as real * tickSeconds, s.writer), [])
    decreases n
  {
    if n > 0 {
      assert s.timer > 0.0 by {
        assert (n - 1) as real * tickSeconds >= 0.0;
      }
      var first := Update(s, tickSeconds, [p]);
      SinglePaddleUpdate(s, tickSeconds, p);
      assert first == (Sender(s.timer - tickSeconds, s.writer), []);
      var m: nat := n - 1;
      assert m as real * tickSeconds == (n - 1) as real * tickSeconds;
      assert first.0.timer - m as real * tickSeconds == s.timer - n as real * tickSeconds;
      if m > 0 {
        assert (m - 1) as real * tickSeconds == m as real * tickSeconds - tickSeconds;
        assert first.0.timer - (m - 1) as real * tickSeconds == s.timer - m as real * tickSeconds;
      }
      QuietTicks(first.0, tickSeconds, p, m);
      var rest := Run(first.0, tickSeconds, p, m);
      assert Run(s, tickSeconds, p, n) == (rest.0, first.1 + rest.1);
    }
  }

  /**
   The send period. If `k` is the least number of ticks that covers the period (`(k - 1) d <
   STATE_FREQUENCY <= k d` for a tick of `d` seconds), then from an expired countdown exactly one
   packet leaves in the next `k` ticks, on the first of them, and the countdown has expired
   again after them.
   */
  lemma SendPeriod(s: Sender, tickSeconds: real, p: LocalPaddle, k: nat)
    requires tickSeconds > 0.0 && s.timer <= 0.0 && k > 0
    requires (k - 1) as real * tickSeconds < STATE_FREQUENCY <= k as real * tickSeconds
    ensures var r := Run(s, tickSeconds, p, k);
      && r.1 == [Outgoing(PaddlePacket, WritePaddle(FieldsOf(tickSeconds, p)))]
      && r.0.timer <= 0.0
  {
    var first := Update(s, tickSeconds, [p]);
    SinglePaddleUpdate(s, tickSeconds, p);
    assert (k - 1) as real * tickSeconds == k as real * tickSeconds - tickSeconds;
    QuietTicks(first.0, tickSeconds, p, k - 1);
    if k > 1 {
      assert (k - 2) as real * tickSeconds == (k - 1) as real * tickSeconds - tickSeconds;
    }
    assert Run(s, tickSeconds, p, k) == (Run(first.0, tickSeconds, p, k - 1).0, first.1 + Run(first.0, tickSeconds, p, k - 1).1);
  }

  /** Over `m` whole periods from an expired countdown, exactly `m` packets leave. */
  lemma {:induction false} PeriodicSends(s: Sender, tickSeconds: real, p: LocalPaddle, k: nat, m: nat)
    requires tickSeconds > 0.0 && s.timer <= 0.0 && k > 0
    requires (k - 1) as real * tickSeconds < STATE_FREQUENCY <= k as real * tickSeconds
    ensures |Run(s, tickSeconds, p, m * k).1| == m
    decreases m
  {
    if m > 0 {
      var rest: nat := (m - 1) * k;
      assert k + rest == m * k;
      SendPeriod(s, tickSeconds, p, k);
      var ra := Run(s, tickSeconds, p, k);
      PeriodicSends(ra.0, tickSeconds, p, k, m - 1);
      RunSplit(s, tickSeconds, p, k, rest);
      assert |ra.1 + Run(ra.0, tickSeconds, p, rest).1| == 1 + (m - 1);
    }
  }

  /** At 60 ticks a second the period is six ticks, so a second of play sends ten packets. */
  lemma SixtyTicksSendTenPackets(p: LocalPaddle)
    ensures |Run(INITIAL_SENDER, 1.0 / 60.0, p, 60).1| == 10
  {
    PeriodicSends(INITIAL_SENDER, 1.0 / 60.0, p, 6, 10);
  }
}

=== FILE: types.dfy ===
/**
 The values shared by every part of the network-reconciliation core: optional values, 2D
 vectors, the paddle record that the simulation, previous and display components hold,
 entity and session handles, the match score, and sums of real sequences.

 Floating-point values are modelled as exact reals; no claim is made about rounding.
 */
module Types {

  /** A value that may be absent: a missing dictionary entry, a null reference. */
  datatype Option<T> = None | Some(value: T)

  /** XNA's `Vector2`. */
  datatype Vector2 = Vector2(x: real, y: real)

  /** The paddle record copied between the simulation, previous and display components. */
  datatype PaddleState = PaddleState(position: Vector2, velocity: Vector2, moveUp: bool, moveDown: bool)

  /** A MoonTools.ECS entity handle. */
  type Entity = nat

  /** A transport-assigned session identifier. */
  type SessionId = string

  /** A user's presence in a match (`IUserPresence`): the account and the connection. */
  datatype Presence = Presence(userId: string, sessionId: SessionId)

  /** XNA's `PlayerIndex`, restricted to the two values the game uses. */
  datatype PlayerIndex = One | Two

  /**
   The deterministic paddle step (`UpdateState` of the paddle-state base system, whose code
   is not part of this model). It is kept abstract: every operation that steps a paddle takes
   it as a parameter.
   */
  type Stepper = (Entity, PaddleState) -> PaddleState

  /** The two totals of the shared match score (`MultiplayerGameState`). */
  datatype GameState = GameState(player1Score: int, player2Score: int)

  /** `n` applications of the paddle step to `s`. */
  function Iterate(step: Stepper, e: Entity, n: nat, s: PaddleState): PaddleState
    decreases n
  {
    if n == 0 then s else Iterate(step, e, n - 1, step(e, s))
  }

  lemma {:induction false} IterateSplit(step: Stepper, e: Entity, m: nat, n: nat, s: PaddleState)
    ensures Iterate(step, e, m + n, s) == Iterate(step, e, n, Iterate(step, e, m, s))
    decreases m
  {
    if m > 0 {
      IterateSplit(step, e, m - 1, n, step(e, s));
    }
  }

  /** Left-to-right sum of a sequence of samples. */
  function SumOf(xs: seq<real>): real
  {
    if xs == [] then 0.0 else xs[0] + SumOf(xs[1..])
  }

  lemma {:induction false} SumOfAppend(a: seq<real>, b: seq<real>)
    ensures SumOf(a + b) == SumOf(a) + SumOf(b)
    decreases |a|
  {
    if a != [] {
      assert (a + b)[0] == a[0];
      assert (a + b)[1..] == a[1..] + b;
      SumOfAppend(a[1..], b);
    } else {
      assert a + b == b;
    }
  }

  /** Overwriting one slot changes the sum by the difference of the new and old values. */
  lemma {:induction false} SumOfUpdate(xs: seq<real>, i: nat, x: real)
    requires i < |xs|
    ensures SumOf(xs[i := x]) == SumOf(xs) - xs[i] + x
    decreases |xs|
  {
    if i > 0 {
      assert xs[i := x][1..] == xs[1..][i - 1 := x];
      SumOfUpdate(xs[1..], i - 1, x);
    }
  }

  /** `n` zero samples: the contents of a freshly allocated `float[]`. */
  function Zeros(n: nat): (r: seq<real>)
    ensures |r| == n
    ensures forall i :: 0 <= i < n ==> r[i] == 0.0
  {
    seq(n, _ => 0.0)
  }

  lemma {:induction false} SumOfZeros(n: nat)
    ensures SumOf(Zeros(n)) == 0.0
    decreases n
  {
    if n > 0 {
      assert Zeros(n)[1..] == Zeros(n - 1);
      SumOfZeros(n - 1);
    }
  }

  function Min(a: int, b: int): int
  {
    if a <= b then a else b
  }
}

=== FILE: update_remote.dfy ===
/**
 `PlayerNetworkRemoteUpdateRemoteSystem`: every tick, for each entity with a smoothing
 component, the smoothing factor decays linearly towards 0; with prediction enabled the
 simulation state takes one paddle step, and so does the previous state while the factor is
 still positive; once the factor is 0 the display state is set to the simulation state.

 The decay per tick is the tick length in seconds times the send rate, so a factor of 1 reaches
 0 in about the time between two state packets. This system writes the display state only when
 the factor reaches 0; while it is positive the display state is left as it is.
 */
module UpdateRemoteSystem {
  import opened Types
  import opened RemotePaddles
  import SendLocalStateSystem

  /** `TargetElapsedTime.TotalSeconds * UPDATES_PER_SECOND`: the decay of one tick. */
  function SmoothingDecay(tickSeconds: real): real
  {
    tickSeconds * SendLocalStateSystem.UPDATES_PER_SECOND as real
  }

  /** The linear decay of a smoothing factor, clamped at 0. */
  function Decay(factor: real, decay: real): (r: real)
    ensures r >= 0.0
    ensures r > 0.0 <==> factor - decay > 0.0
    ensures r > 0.0 ==> r == factor - decay
    ensures decay >= 0.0 && factor >= 0.0 ==> r <= factor
  {
    var v := factor - decay;
    if v < 0.0 then 0.0 else v
  }

  /**
   One entity's update. The factor decays; prediction steps the simulation state, and the
   previous state too while the decayed factor is positive, so both ends of the smoothing move
   together; a factor of exactly 0 collapses the display state onto the simulation state, and
   otherwise the display state is not touched.
   */
  function UpdateOne(p: RemotePaddle, e: Entity, decay: real, enablePrediction: bool, step: Stepper): (r: RemotePaddle)
    requires p.smoothing.Some?
    ensures r.smoothing == Some(Decay(p.smoothing.value, decay))
    ensures r.simulation == (if enablePrediction then step(e, p.simulation) else p.simulation)
    ensures r.previous == (if enablePrediction && r.smoothing.value > 0.0 then step(e, p.previous) else p.previous)
    ensures r.smoothing.value == 0.0 ==> r.display == r.simulation
    ensures r.smoothing.value != 0.0 ==> r.display == p.display
  {
    var factor := Decay(p.smoothing.value, decay);
    var simulation := if enablePrediction then step(e, p.simulation) else p.simulation;
    var previous := if enablePrediction && factor > 0.0 then step(e, p.previous) else p.previous;
    var display := if factor == 0.0 then simulation else p.display;
    RemotePaddle(simulation, previous, display, Some(factor))
  }

  /** One run of the system over the world: entities with a smoothing component are updated,
      the others are not visited. */
  function Update(world: World, tickSeconds: real, enablePrediction: bool, step: Stepper): (r: World)
    ensures r.Keys == world.Keys
    ensures forall e :: e in world && world[e].smoothing.None? ==> r[e] == world[e]
    ensures forall e :: e in world && world[e].smoothing.Some? ==>
      r[e] == UpdateOne(world[e], e, SmoothingDecay(tickSeconds), enablePrediction, step)
  {
    map e | e in world ::
      if world[e].smoothing.Some? then UpdateOne(world[e], e, SmoothingDecay(tickSeconds), enablePrediction, step)
      else world[e]
  }

  /** A smoothing factor, where present, lies in [0, 1]. */
  predicate FactorInUnit(p: RemotePaddle)
  {
    p.smoothing.Some? ==> 0.0 <= p.smoothing.value <= 1.0
  }

  /** The state this system leaves each paddle in: the factor in [0, 1], and a factor of 0
      means the display state is the simulation state. */
  predicate Settled(p: RemotePaddle)
  {
    && FactorInUnit(p)
    && (p.smoothing == Some(0.0) ==> p.display == p.simulation)
  }

  /** Whatever factors in [0, 1] the reset system left, after this system every paddle is
      settled: a factor never leaves [0, 1] and a factor of 0 always shows the simulation. */
  lemma UpdateSettles(world: World, tickSeconds: real, enablePrediction: bool, step: Stepper)
    requires tickSeconds >= 0.0
    requires forall e :: e in world ==> FactorInUnit(world[e])
    ensures var r := Update(world, tickSeconds, enablePrediction, step);
      forall e :: e in r ==> Settled(r[e])
  {
  }

  /** `n` ticks of one entity's update. */
  function Smooth(p: RemotePaddle, e: Entity, decay: real, enablePrediction: bool, step: Stepper, n: nat): (r: RemotePaddle)
    requires p.smoothing.Some?
    ensures r.smoothing.Some?
    decreases n
  {
    if n == 0 then p else Smooth(UpdateOne(p, e, decay, enablePrediction, step), e, decay, enablePrediction, step, n - 1)
  }

  /** The larger of `x` and 0. */
  function ClampAtZero(x: real): real
  {
    if x > 0.0 then x else 0.0
  }

  /** After `n` ticks a factor `v` has become `max(0, v - n * decay)`: linear decay, never
      below 0. */
  lemma {:induction false} FactorAfterTicks(p: RemotePaddle, e: Entity, decay: real, enablePrediction: bool, step: Stepper, n: nat)
    requires p.smoothing.Some? && p.smoothing.value >= 0.0 && decay >= 0.0
    ensures Smooth(p, e, decay, enablePrediction, step, n).smoothing.value
      == ClampAtZero(p.smoothing.value - n as real * decay)
    decreases n
  {
    if n > 0 {
      var q := UpdateOne(p, e, decay, enablePrediction, step);
      FactorAfterTicks(q, e, decay, enablePrediction, step, n - 1);
      var v := p.smoothing.value;
      assert (n - 1) as real * decay == n as real * decay - decay;
      if v - decay <= 0.0 {
        assert v - n as real * decay <= 0.0 by {
          assert n as real * decay >= decay;
        }
      }
    }
  }

  /** The factor has reached 0 after `n` ticks exactly when `n` decays cover the starting
      factor. */
  lemma SettledAfter(p: RemotePaddle, e: Entity, decay: real, enablePrediction: bool, step: Stepper, n: nat)
    requires p.smoothing.Some? && p.smoothing.value >= 0.0 && decay >= 0.0
    ensures var q := Smooth(p, e, decay, enablePrediction, step, n);
      q.smoothing.value == 0.0 <==> n as real * decay >= p.smoothing.value
  {
    FactorAfterTicks(p, e, decay, enablePrediction, step, n);
  }

  /** At 60 ticks a second the decay is 1/6: a factor of 1 is still positive after five ticks
      and 0 after six, when the next packet of the ten-a-second sender is due. */
  lemma SixTicksAtSixtyHertz(p: RemotePaddle, e: Entity, enablePrediction: bool, step: Stepper)
    requires p.smoothing == Some(1.0)
    ensures SmoothingDecay(1.0 / 60.0) == 1.0 / 6.0
    ensures Smooth(p, e, SmoothingDecay(1.0 / 60.0), enablePrediction, step, 5).smoothing.value > 0.0
    ensures Smooth(p, e, SmoothingDecay(1.0 / 60.0), enablePrediction, step, 6).smoothing.value == 0.0
  {
    SettledAfter(p, e, 1.0 / 6.0, enablePrediction, step, 5);
    SettledAfter(p, e, 1.0 / 6.0, enablePrediction, step, 6);
  }

  /**
   While the factor stays positive, prediction advances the simulation and previous states in
   lockstep, one paddle step a tick each, and the display state does not move.
   */
  lemma {:induction false} Lockstep(p: RemotePaddle, e: Entity, decay: real, step: Stepper, n: nat)
    requires p.smoothing.Some? && decay >= 0.0
    requires n as real * decay < p.smoothing.value
    ensures var q := Smooth(p, e, decay, true, step, n);
      && q.simulation == Iterate(step, e, n, p.simulation)
      && q.previous == Iterate(step, e, n, p.previous)
      && q.display == p.display
    decreases n
  {
    if n > 0 {
      var q := UpdateOne(p, e, decay, true, step);
      assert (n - 1) as real * decay == n as real * decay - decay;
      assert (n - 1) as real * decay >= 0.0;
      Lockstep(q, e, decay, step, n - 1);
    }
  }

  /** With prediction disabled the simulation and previous states never move. */
  lemma {:induction false} NoPredictionNoMotion(p: RemotePaddle, e: Entity, decay: real, step: Stepper, n: nat)
    requires p.smoothing.Some?
    ensures var q := Smooth(p, e, decay, false, step, n);
      q.simulation == p.simulation && q.previous == p.previous
    decreases n
  {
    if n > 0 {
      NoPredictionNoMotion(UpdateOne(p, e, decay, false, step), e, decay, step, n - 1);
    }
  }
}
